=== FILE: README.md ===
# GravesKeeper enemy logic in Dafny

This project models the tick-driven enemy logic of the GravesKeeper Unity game and proves properties of it:

- the attack cycle shared by all attacking enemies (`AttackBase`): a cooldown timer, a windup episode, the reload bar and the leasing of preview lines;
- its two concrete attacks: the spread attack `MultipleLineAttack` (a fan of L lines fired in several volleys) and the burst attack `TurretAttack` (N shots with a pause between shots);
- the enemy projectile `EnemyBullet` (owner rule, damage or score, bounce counter);
- the single-shot enemy `EnemyScript`;
- the nearest-target search of `RotateToNearestTarget`;
- the hard-coded wave timeline `EnemyWave`;
- the brick health component `HealthCompponent`.

Each source file is one module, and each MonoBehaviour is a class whose fields the methods update. Unity's engine is replaced as follows.

- **Coroutines.** Every coroutine becomes a pending flag, a deadline and, where needed, a resume index. The game loop calls `Update` and then `ResumeCoroutines(now)` once per frame. A wait therefore ends on the first frame at or after its deadline. The synchronous part of a coroutine runs inside the call that starts it.
- **Pools.** A pool (`Pools.Pool`) is a sequence of active flags. Acquiring takes some inactive slot, or appends a new active one. Releasing and activating set one flag. Pooled objects are referred to by slot number.
- **Inheritance.** The abstract class becomes composition: each concrete attack holds its `AttackBase` as `cycle`. Where the base would call the abstract `Attack()`, the base method returns `fire`, and the concrete attack then runs its own `Attack`.
- **Physics.** A raycast is an input: the distance to the first wall along the ray, if any. A collision is an input too: the hit object's identity, whether it is the player, and the health components on the object and its parent.
- **Numbers.** Time, angles and distances are `real`; counters are unbounded integers.

The base `AttackBase.TryAttack` is modelled as written, although neither concrete attack calls it: each has its own trigger (`TryAttackMultiple`, `CheckAndTryAttack`) that also checks its own firing flag.

Ghost counters record what happened so that contracts can state it: attack episodes and `Attack()` calls, volleys and waits, shot times, and the angles of the bullets fired.

The spread angles follow the code, not the tooltip at Assets/Core/Scripts/Game/Enemy/EnemyTypes/MultipleLineAttack.cs:10. The tooltip says 45 degrees and 3 lines give 0, 22.5 and 45. The code centres the fan: it gives -22.5, 0 and 22.5, and a single line at -A/2.

## Model

| member | source | states |
|---|---|---|
| Pools.Pool.Acquire | Assets/Core/Scripts/Game/Enemy/EnemyTypes/AttackBase.cs:39-43 | the returned slot is active afterwards and was free before (or is new); the pool grows by at most one slot; no other slot changes |
| Pools.Pool.Release | Assets/Core/Scripts/Game/Enemy/EnemyTypes/AttackBase.cs:48-53 | releasing a slot clears that one flag and no other |
| Pools.Pool.Activate | Assets/Core/Scripts/Game/Enemy/EnemyTypes/MultipleLineAttack.cs:107-109 | activating a slot sets that one flag and no other |
| AttackCycle.PreviewReachIsNearestOfWallAndLength | Assets/Core/Scripts/Game/Enemy/EnemyTypes/MultipleLineAttack.cs:115-127 | a preview ends at the wall hit when the wall is within the preview length, otherwise at the full length; it is never longer than the preview length |
| AttackCycle.FullBarIffAttackDue | Assets/Core/Scripts/Game/Enemy/EnemyTypes/AttackBase.cs:85 | with a positive attack rate the reload bar is full (fill ≥ 1) exactly when elapsed ≥ AttackRate, the trigger condition |
| AttackCycle.AttackBase.GetLineRendererFromPool | Assets/Core/Scripts/Game/Enemy/EnemyTypes/AttackBase.cs:35-46 | no pool gives null and changes nothing; otherwise one free (or new) line instance becomes active and no other instance changes |
| AttackCycle.AttackBase.ReturnLineRendererToPool | Assets/Core/Scripts/Game/Enemy/EnemyTypes/AttackBase.cs:48-54 | returning only deactivates that line; null changes nothing |
| AttackCycle.AttackBase.RefreshReloadBar | Assets/Core/Scripts/Game/Enemy/EnemyTypes/AttackBase.cs:83-86 | the bar fill becomes elapsed / AttackRate |
| AttackCycle.AttackBase.StartAttackSequence | Assets/Core/Scripts/Game/Enemy/EnemyTypes/AttackBase.cs:66-75 | starting an episode sets the performing flag, resets elapsed to exactly 0, sends one animator trigger when an animator exists, and schedules the windup to end AttackAnimationDelay later |
| AttackCycle.AttackBase.TryAttack | Assets/Core/Scripts/Game/Enemy/EnemyTypes/AttackBase.cs:56-64 | an episode starts exactly when none is in progress and elapsed ≥ AttackRate, with one animator trigger when an animator exists and the windup pending for AttackAnimationDelay; otherwise nothing changes, the trigger count and any pending windup included |
| AttackCycle.AttackBase.ResumeWindup | Assets/Core/Scripts/Game/Enemy/EnemyTypes/AttackBase.cs:75-80 | when the windup deadline has passed, Attack is granted exactly once and the performing flag clears; before it nothing changes |
| AttackCycle.AttackBase.OnAttackAnimationEvent | Assets/Core/Scripts/Game/Enemy/EnemyTypes/AttackBase.cs:91-99 | while performing, the pending windup is cancelled, Attack is granted exactly once and the flag clears; while not performing nothing changes; so each episode grants Attack once by either path |
| SpreadAttack.AtLeastOne | Assets/Core/Scripts/Game/Enemy/EnemyTypes/MultipleLineAttack.cs:73 | Mathf.Max(1, x), used for the line count and the volley count: x itself when x ≥ 1, and 1 for any x below 1 |
| SpreadAttack.SpreadAngles | Assets/Core/Scripts/Game/Enemy/EnemyTypes/MultipleLineAttack.cs:100-111 | the fan has exactly L angles |
| SpreadAttack.StepSpansSpread | Assets/Core/Scripts/Game/Enemy/EnemyTypes/MultipleLineAttack.cs:101 | for L > 1 the L - 1 steps add up to the whole spread |
| SpreadAttack.SpreadEndsAtHalfAngles | Assets/Core/Scripts/Game/Enemy/EnemyTypes/MultipleLineAttack.cs:170-175 | for L > 1 the first angle is -A/2 and the last is +A/2 |
| SpreadAttack.SpreadEvenlySpaced | Assets/Core/Scripts/Game/Enemy/EnemyTypes/MultipleLineAttack.cs:170-175 | neighbouring angles differ by exactly A/(L - 1) |
| SpreadAttack.SpreadSymmetric | Assets/Core/Scripts/Game/Enemy/EnemyTypes/MultipleLineAttack.cs:170-175 | angle i and angle L - 1 - i are opposite |
| SpreadAttack.SpreadWithinHalfAngles | Assets/Core/Scripts/Game/Enemy/EnemyTypes/MultipleLineAttack.cs:170-175 | for a non-negative spread every angle lies within [-A/2, A/2] |
| SpreadAttack.SingleLineFiresAtLeftEdge | Assets/Core/Scripts/Game/Enemy/EnemyTypes/MultipleLineAttack.cs:100-101 | with one line the step is 0, so the only angle is -A/2, which is not 0 unless the spread is 0 |
| SpreadAttack.ThreeLinesOver45Degrees | Assets/Core/Scripts/Game/Enemy/EnemyTypes/MultipleLineAttack.cs:10-13 | the default 45 degrees and 3 lines give -22.5, 0 and 22.5, not the tooltip's 0, 22.5 and 45 |
| SpreadAttack.WaitOnlyBetweenVolleys | Assets/Core/Scripts/Game/Enemy/EnemyTypes/MultipleLineAttack.cs:156-161 | after volley q the loop waits exactly when another volley follows, so there is no wait after the last |
| SpreadAttack.Repeat | Assets/Core/Scripts/Game/Enemy/EnemyTypes/MultipleLineAttack.cs:156-158 | k volleys of a fan hold k times as many bullets |
| SpreadAttack.RepeatAt | Assets/Core/Scripts/Game/Enemy/EnemyTypes/MultipleLineAttack.cs:156-175 | bullet r of volley q is the fan's angle r |
| SpreadAttack.AttackAngles | Assets/Core/Scripts/Game/Enemy/EnemyTypes/MultipleLineAttack.cs:152-178 | one attack fires max(1, _queues) · L bullets |
| SpreadAttack.MultipleLineAttack.FinishedAttackFiredAttackAngles | Assets/Core/Scripts/Game/Enemy/EnemyTypes/MultipleLineAttack.cs:152-178 | once an attack is over (with a missile pool), the bullets it fired are exactly AttackAngles: the fan's angles, volley after volley |
| SpreadAttack.MultipleLineAttack.Update | Assets/Core/Scripts/Game/Enemy/EnemyTypes/MultipleLineAttack.cs:32-41 | elapsed grows by the tick delta only when neither the windup nor the volleys are in progress; the bar shows that value; an episode starts when idle and due, with one animator trigger when an animator exists; otherwise a pending windup keeps its deadline and no trigger is sent; previews are held exactly when shown; shown, they are drawn and leased as ShowPreviewLines states, newly held ones free before; hidden, exactly the held ones are released |
| SpreadAttack.MultipleLineAttack.TryAttackMultiple | Assets/Core/Scripts/Game/Enemy/EnemyTypes/MultipleLineAttack.cs:43-51 | an episode starts exactly when neither the windup nor the volleys are in progress and elapsed ≥ AttackRate, with one animator trigger when an animator exists and the windup pending for AttackAnimationDelay; otherwise nothing changes, the trigger count and any pending windup included |
| SpreadAttack.MultipleLineAttack.ReturnPreviews | Assets/Core/Scripts/Game/Enemy/EnemyTypes/MultipleLineAttack.cs:61-67 | exactly the held previews are deactivated; null entries are skipped; nothing else changes |
| SpreadAttack.MultipleLineAttack.LeasePreviews | Assets/Core/Scripts/Game/Enemy/EnemyTypes/MultipleLineAttack.cs:89-97 | a new array of L entries is leased: distinct instances, each free before and active after, or all null without a pool; no other instance changes |
| SpreadAttack.MultipleLineAttack.DrawPreviews | Assets/Core/Scripts/Game/Enemy/EnemyTypes/MultipleLineAttack.cs:105-128 | every held preview is activated and ends at PreviewReach of its own ray; nothing else changes |
| SpreadAttack.MultipleLineAttack.UpdatePreviewLines | Assets/Core/Scripts/Game/Enemy/EnemyTypes/MultipleLineAttack.cs:53-128 | previews are shown iff elapsed ≥ 0.75 · AttackRate and not firing; hidden, exactly the held previews are released and the array becomes null; shown, L previews are held, kept when the length matches, newly held ones free before (or new), each drawn to its wall hit or full length, the dropped ones released and every other line instance unchanged |
| SpreadAttack.MultipleLineAttack.ShowPreviewLines | Assets/Core/Scripts/Game/Enemy/EnemyTypes/MultipleLineAttack.cs:73-128 | when shown exactly L previews are held, re-leased only if the array was null or had another length (and then the old ones are returned), every newly held instance free before (or new), each active and drawn to the wall or full length; no other instance changes |
| SpreadAttack.MultipleLineAttack.OnDestroy | Assets/Core/Scripts/Game/Enemy/EnemyTypes/MultipleLineAttack.cs:131-144 | every held preview is returned and the array becomes null |
| SpreadAttack.MultipleLineAttack.CreateBullet | Assets/Core/Scripts/Game/Enemy/EnemyTypes/MultipleLineAttack.cs:181-189 | no missile pool: nothing is fired and the pool is untouched; otherwise exactly one missile is acquired (free before or new, active after, every other slot unchanged) and recorded at the given angle |
| SpreadAttack.MultipleLineAttack.FireLines | Assets/Core/Scripts/Game/Enemy/EnemyTypes/MultipleLineAttack.cs:166-179 | one volley fires one bullet per line, at the fan's angles in order; exactly L more missile instances are active and none was released |
| SpreadAttack.MultipleLineAttack.Attack | Assets/Core/Scripts/Game/Enemy/EnemyTypes/MultipleLineAttack.cs:146-154 | an attack fires its first volley at once, activating exactly L missiles, and stays attacking iff more than one volley is due |
| SpreadAttack.MultipleLineAttack.RunVolleys | Assets/Core/Scripts/Game/Enemy/EnemyTypes/MultipleLineAttack.cs:152-164 | each run fires one volley, activating exactly L missiles; attacking stays true until the last volley and is false after it; a finished attack fired max(1, _queues) volleys with one wait fewer, all angles from the fan (class invariant) |
| SpreadAttack.MultipleLineAttack.ResumeCoroutines | Assets/Core/Scripts/Game/Enemy/EnemyTypes/MultipleLineAttack.cs:156-161 | a due volley wait fires the next volley and a due windup runs Attack once, either way activating exactly L more missiles and scheduling the next wait if volleys remain; otherwise nothing changes: flags, deadlines, resume index, fired angles and the missile pool |
| SpreadAttack.MultipleLineAttack.OnAttackAnimationEvent | Assets/Core/Scripts/Game/Enemy/EnemyTypes/AttackBase.cs:91-99 | during the windup the attack runs once at once, activating exactly L missiles, and the windup is dropped; otherwise nothing changes, the missile pool and pending volley included |
| BurstAttack.TurretBulletInit | Assets/Core/Scripts/Game/Enemy/EnemyTypes/Turret.cs:148 | every burst bullet is initialised with (_bulletSpeed, 15, 3) |
| BurstAttack.BurstSize | Assets/Core/Scripts/Game/Enemy/EnemyTypes/Turret.cs:113 | a burst emits _bulletNumber bullets when that is non-negative, and none when it is negative |
| BurstAttack.BurstWaits | Assets/Core/Scripts/Game/Enemy/EnemyTypes/Turret.cs:118-121 | n shots take n - 1 waits, none after the last |
| BurstAttack.SpacedSpan | Assets/Core/Scripts/Game/Enemy/EnemyTypes/Turret.cs:118-121 | shot k comes at least k waits after the first shot |
| BurstAttack.TurretAttack.FinishedBurstSpan | Assets/Core/Scripts/Game/Enemy/EnemyTypes/Turret.cs:108-126 | a finished burst lasts at least BurstWaits · _timeBtwAttack from its first shot to its last |
| BurstAttack.TurretAttack.Update | Assets/Core/Scripts/Game/Enemy/EnemyTypes/Turret.cs:32-40 | elapsed grows only when neither the windup nor the burst is in progress; the bar shows that value; an episode starts when idle and due, with one animator trigger when an animator exists; otherwise a pending windup keeps its deadline and no trigger is sent; a preview is held only when shown, and always when shown with a line pool; hidden, the held preview is released and nothing else in the line pool changes; shown, a kept preview leaves the pool alone and a newly leased one was free (or new); the end point is redrawn and the next raycast set 0.1 s later exactly when the raycast time has come |
| BurstAttack.TurretAttack.CheckAndTryAttack | Assets/Core/Scripts/Game/Enemy/EnemyTypes/Turret.cs:128-136 | an episode starts exactly when idle and elapsed ≥ AttackRate, with one animator trigger when an animator exists and the windup pending for AttackAnimationDelay; otherwise nothing changes, the trigger count and any pending windup included |
| BurstAttack.TurretAttack.UpdatePreviewLine | Assets/Core/Scripts/Game/Enemy/EnemyTypes/Turret.cs:42-91 | hidden: the preview is returned and cleared; shown: a preview is leased if none is held (free before or new, active after, no other line instance changed), kept otherwise; whenever the raycast time has come its end point is set to PreviewReach of the ray and the next raycast is 0.1 s later; before then nothing is redrawn |
| BurstAttack.TurretAttack.OnDisable | Assets/Core/Scripts/Game/Enemy/EnemyTypes/Turret.cs:93-100 | the preview, if held, is returned and cleared |
| BurstAttack.TurretAttack.CreateBullet | Assets/Core/Scripts/Game/Enemy/EnemyTypes/Turret.cs:138-150 | exactly one missile is acquired (free before or new, active after, every other slot unchanged) and initialised with (_bulletSpeed, 15, 3) when it has an EnemyBullet component |
| BurstAttack.TurretAttack.Attack | Assets/Core/Scripts/Game/Enemy/EnemyTypes/Turret.cs:102-111 | a burst fires its first shot at once, acquiring exactly that missile (free before or new, every other slot unchanged), or leaves the pool alone when the burst is empty; it stays attacking iff more shots follow |
| BurstAttack.TurretAttack.RunBurst | Assets/Core/Scripts/Game/Enemy/EnemyTypes/Turret.cs:108-126 | each run fires one shot if any remain, acquiring exactly that shot's missile, and otherwise leaves the pool alone; attacking is true until the last shot; afterwards it is false and the counter is 0; a finished burst fired max(0, _bulletNumber) shots with n - 1 waits, spaced by _timeBtwAttack (class invariant) |
| BurstAttack.TurretAttack.ResumeCoroutines | Assets/Core/Scripts/Game/Enemy/EnemyTypes/Turret.cs:118-122 | a due shot wait fires the next shot, acquiring exactly its missile; a due windup runs Attack once with Attack's pool effect; otherwise nothing changes: flags, deadline, counter, shots and the missile pool |
| BurstAttack.TurretAttack.OnAttackAnimationEvent | Assets/Core/Scripts/Game/Enemy/EnemyTypes/AttackBase.cs:91-99 | during the windup the burst starts once at once, with Attack's pool effect, and the windup is dropped; otherwise nothing changes, the missile pool and pending shot included |
| Projectiles.Classify | Assets/Core/Scripts/Game/Enemy/Bullet/EnemyBullet.cs:57-73 | the object's own health is hit if it has one, otherwise the parent's if it has one, otherwise nothing is damaged |
| Projectiles.ScoreOnlyWithoutHealth | Assets/Core/Scripts/Game/Enemy/Bullet/EnemyBullet.cs:38-81 | a hit scores, and scores 5, exactly when neither the object nor its parent has health |
| Projectiles.AfterBounce | Assets/Core/Scripts/Game/Enemy/Bullet/EnemyBullet.cs:83-84 | a counted hit adds one bounce; the bullet is switched off exactly when the new count reaches the limit, and then the counter is 0; otherwise the counter stays below the limit |
| Projectiles.BouncesCountHits | Assets/Core/Scripts/Game/Enemy/Bullet/EnemyBullet.cs:83-84 | before the limit the counter equals the number of counted hits |
| Projectiles.DeactivatedOnLimitthHit | Assets/Core/Scripts/Game/Enemy/Bullet/EnemyBullet.cs:83-100 | from 0, the bullet survives limit - 1 hits and is switched off, with the counter reset, on hit number limit |
| Projectiles.BouncesPeriodic | Assets/Core/Scripts/Game/Enemy/Bullet/EnemyBullet.cs:83-100 | the counter repeats every limit hits, so a reused bullet starts its next life at 0 |
| Projectiles.SmallLimitDiesOnFirstHit | Assets/Core/Scripts/Game/Enemy/Bullet/EnemyBullet.cs:84 | a bounce limit of 1 or less switches the bullet off on every counted hit |
| Projectiles.EnemyBullet.Init | Assets/Core/Scripts/Game/Enemy/Bullet/EnemyBullet.cs:22-25 | the owner is recorded |
| Projectiles.EnemyBullet.Initialize | Assets/Core/Scripts/Game/Enemy/Bullet/EnemyBullet.cs:102-107 | sets speed, bounce limit and angle error only; the bounce counter is untouched |
| Projectiles.EnemyBullet.RefreshBullet | Assets/Core/Scripts/Game/Enemy/Bullet/EnemyBullet.cs:96-100 | the counter becomes 0 and the bullet's pool slot is deactivated |
| Projectiles.EnemyBullet.OnCollisionEnter | Assets/Core/Scripts/Game/Enemy/Bullet/EnemyBullet.cs:35-84 | a hit on the owner at 0 bounces changes nothing; any other hit stuns a player, damages the object's health (popup read after the damage) or else the parent's (popup read before it), scores 5 only without health, adds exactly one bounce, and at the limit resets the counter and deactivates the bullet |
| SingleShot.EnemyScript.ShootCondition | Assets/Core/Scripts/Game/Enemy/EnemyScript.cs:47-55 | shooting needs a target; with a target it is allowed when no bullet was fired yet, or exactly when the last bullet is inactive |
| SingleShot.EnemyScript.FixedUpdate | Assets/Core/Scripts/Game/Enemy/EnemyScript.cs:21-45 | without a target, or while the last bullet is active, nothing changes; otherwise below the delay the timer grows by the fixed step; at the delay exactly one bullet is acquired (free before or new, active after, every other slot unchanged) with the configured speed, error and bounce limit, the timer is reset, and no further shot is possible while it is active |
| Targeting.IgnoredYDoesNotMatter | Assets/Core/Scripts/Game/RotateToNearestTarget.cs:73-75 | with Y ignored, the squared distance does not depend on the target's height |
| Targeting.NearestIsUnique | Assets/Core/Scripts/Game/RotateToNearestTarget.cs:70-81 | at most one entry is the earliest of the nearest selectable ones, so the choice is well defined |
| Targeting.RotateToNearestTarget.NearestFromManual | Assets/Core/Scripts/Game/RotateToNearestTarget.cs:62-83 | a null list gives null; null or inactive entries are never chosen; the result is null iff no entry is selectable; otherwise it has the least squared distance (horizontal when Y is ignored) and is strictly nearer than every selectable entry before it, so ties go to the earliest |
| Targeting.RotateToNearestTarget.Update | Assets/Core/Scripts/Game/RotateToNearestTarget.cs:50-60 | no turn iff there is no target, it is inactive, or its squared distance is below 0.0001; otherwise the pivot turns towards the target offset |
| Targeting.RotateToNearestTarget.OnEnable | Assets/Core/Scripts/Game/RotateToNearestTarget.cs:30-46 | the search loop starts and picks the nearest target at once |
| Targeting.RotateToNearestTarget.FindTargetsStep | Assets/Core/Scripts/Game/RotateToNearestTarget.cs:41-48 | once the search interval has passed the target is chosen again; before that nothing changes |
| Targeting.RotateToNearestTarget.OnDisable | Assets/Core/Scripts/Game/RotateToNearestTarget.cs:35-39 | the search stops and the current target is cleared |
| Targeting.RotateToNearestTarget.SetManualTargets | Assets/Core/Scripts/Game/RotateToNearestTarget.cs:109-114 | null clears the list; otherwise the targets are copied in order |
| Targeting.RotateToNearestTarget.constructor | Assets/Core/Scripts/Game/RotateToNearestTarget.cs:23-28 | the targets are the scene's bricks and the search interval is at least 0.05 s |
| Waves.ScheduleTimes | Assets/Core/Scripts/Game/Enemy/EnemyWave.cs:16-42 | the waits are 15, 17, 19 and 21 s, so the steps fall at 0, 15, 32, 51 and 72 s |
| Waves.ActivationOrder | Assets/Core/Scripts/Game/Enemy/EnemyWave.cs:34-43 | the wave activates Gloom, Cactus, Golem, GloomLeft, GloomRight, FireGolem, each once, in that order |
| Waves.FlattenPrefix | Assets/Core/Scripts/Game/Enemy/EnemyWave.cs:34-43 | the enemies of the first k steps are a prefix of the whole wave |
| Waves.PacedMeetsOffsets | Assets/Core/Scripts/Game/Enemy/EnemyWave.cs:35-42 | steps separated by their waits fall no earlier than their offsets from the start |
| Waves.EnemyWave.Update | Assets/Core/Scripts/Game/Enemy/EnemyWave.cs:20-35 | after the start nothing changes; without Return or KeypadEnter nothing changes; otherwise the start text is hidden, the wave is started once, Gloom is activated at once and the first wait of 15 s begins |
| Waves.EnemyWave.ResumeSpawnWave | Assets/Core/Scripts/Game/Enemy/EnemyWave.cs:35-43 | when the wait is over the next step's enemies are activated (GloomLeft and GloomRight together) and, unless it was the last step, the next wait of 15 + 2k s begins; before that nothing changes |
| Waves.EnemyWave.ActivatedInOrderAndOnTime | Assets/Core/Scripts/Game/Enemy/EnemyWave.cs:34-43 | at any time the activated enemies are a prefix of the wave's order, and step k ran no earlier than its offset after the start |
| Health.HealthComponent.TakeOneDamage | Assets/Core/Scripts/Game/BrickBuildSystem/HealthComponent.cs:9-17 | health drops by exactly 1 and the object is deactivated iff the new health is below 1 |
| Health.HealthComponent.Die | Assets/Core/Scripts/Game/BrickBuildSystem/HealthComponent.cs:19-22 | only deactivates the object; health is unchanged |
| Health.HealthComponent.constructor | Assets/Core/Scripts/Game/BrickBuildSystem/HealthComponent.cs:6-7 | current health starts at 0, not at MaxHealth |
| Health.FirstHitOnFreshComponent | Assets/Core/Scripts/Game/BrickBuildSystem/HealthComponent.cs:6-16 | the first hit on a fresh component leaves -1 health and deactivates it |

## Left out

- Pool internals: `PoolService`, `PoolMono` and `GetFreeElement` (`PoolSystem.Alternative`) are not part of this model, nor is `PoolManager.GetObject`, which `EnemyScript` calls. Each is assumed to hand out a free instance, or a new one, and activate it, as `Pools.Pool.Acquire` states. The model does not fix which free instance is chosen, nor when a pool grows. `PoolServiceMono.cs` is only static wiring and is left out.
- Spawn points, data-driven wave lists and pool registration by prefab do not exist in the modelled code, so they are not modelled. `EnemyWave` is the hard-coded five-step timeline.
- Positions, rotations, `Quaternion` and `Vector3` operations, `Vector3.Reflect`, the push force on the player and `Rigidbody` velocities are not modelled. Raycasts and collisions are inputs. `RotateToNearestTarget.Update` reports the direction it turns towards; the rotation speed and `RotateTowards` are left out.
- Randomness is left out: the bullet's angle error and the hit sound index.
- The engine's coroutine scheduler is left out. Waits end on the first frame at or after their deadline, and the caller is trusted to call `ResumeCoroutines` each frame.
- Unity stopping coroutines when an object is deactivated or destroyed is not modelled.
- AttackCycle.AttackBase.ResumeWindup: the model clears the performing flag before the concrete `Attack` runs, while the code clears it after. Nothing can observe the difference, because both happen within one call.
- AttackCycle.AttackBase.constructor: requires a non-zero `AttackRate`. `RefreshReloadBar` divides by it, and float division by zero (infinity or NaN) is not modelled.
- AttackCycle.AttackBase.constructor: requires the line pool and the missile pool to be different pools, as they are in the game.
- BurstAttack.TurretAttack.constructor: requires a missile pool. `Turret.CreateBullet` does not check for null, so the code would throw without one.
- The line prefab is assumed to carry a `LineRenderer`, and the `EnemyScript` bullet prefab an `EnemyBullet`. The code would return null or throw otherwise.
- A missing `ReloadBar`, `_bulletCreateTransform`, target or pivot is not modelled (null reference exceptions).
- SingleShot.EnemyScript.FixedUpdate: the aiming direction, including its odd `direction.y` assignment, is left out with the rest of the geometry.
- `SoundManager`, `Bank.AddScore`, `Damages` popups and `PlayerMb.Stun` are external calls. Their effects appear only as fields of the collision outcome.
- Input, UI, scene loading and configuration files are left out: joystick, restart, text animation, bootstrap and app settings.
- `Enemy.cs` relies on an `OnDeath` member that `HealthCompponent` does not declare, so it is left out.
- `CurrentHealth` (read by `EnemyBullet`) is not declared in `HealthCompponent`; the model reads the private current health as an integer.
- Float rounding is not modelled. `Mathf.Max`, the 0.75 threshold and the 0.0001 distance threshold are exact real comparisons.
- Health.HealthComponent.TakeOneDamage: does not model 32-bit overflow of the health counter, which would need more than two billion hits.
- Projectiles.EnemyBullet.OnCollisionEnter: does not model 32-bit overflow of the bounce counter, which could only happen with a bounce limit near the 32-bit maximum.

=== FILE: attack_base.dfy ===
/**
 * AttackBase: the cooldown timer and windup episode shared by every enemy
 * attack, and the leasing of preview ("telegraph") lines from the line pool.
 *
 * The windup coroutine PerformAttackSequence is an explicit pending
 * continuation (windupPending, windupDeadline). The abstract Attack() is
 * not called from here: the members that would call it return `fire`, and
 * the concrete attack (MultipleLineAttack, TurretAttack) runs its own
 * Attack when `fire` is true.
 */
module AttackCycle {
  import opened Options
  import opened Pools

  /** One preview line: the pool slot of its LineRenderer and the length drawn along its direction. */
  datatype PreviewLine = PreviewLine(slot: nat, reach: real)

  /** The part of the cooldown in which previews are shown: its last quarter, and never while firing. */
  predicate ShowPreview(passed: real, attackRate: real, firing: bool) {
    passed >= attackRate * 0.75 && !firing
  }

  /** Length of a preview line: the wall hit if the ray meets one within the
      preview length, otherwise the full preview length. `wall` is the
      distance to the first wall along the ray, if there is one at all. */
  function PreviewReach(wall: Option<real>, length: real): real {
    if wall.Some? && wall.value <= length then wall.value else length
  }

  lemma PreviewReachIsNearestOfWallAndLength(wall: Option<real>, length: real)
    ensures PreviewReach(wall, length) <= length
    ensures wall.None? ==> PreviewReach(wall, length) == length
    ensures wall.Some? ==> PreviewReach(wall, length) == if wall.value < length then wall.value else length
  {
  }

  /** Fill of the reload bar. */
  function ReloadFill(passed: real, attackRate: real): real
    requires attackRate != 0.0
  {
    passed / attackRate
  }

  /** The trigger test of TryAttack and its overrides. */
  predicate AttackDue(passed: real, attackRate: real) {
    passed >= attackRate
  }

  /** With a positive rate the bar is full exactly when an attack is due. */
  lemma FullBarIffAttackDue(passed: real, attackRate: real)
    requires attackRate > 0.0
    ensures ReloadFill(passed, attackRate) >= 1.0 <==> AttackDue(passed, attackRate)
  {
    assert ReloadFill(passed, attackRate) * attackRate == passed;
  }

  /** The pool slots held by a preview array. */
  ghost function HeldSlots(lines: seq<Option<PreviewLine>>): set<nat> {
    set i | 0 <= i < |lines| && lines[i].Some? :: lines[i].value.slot
  }

  lemma HeldSlotsSnoc(lines: seq<Option<PreviewLine>>, e: Option<PreviewLine>)
    ensures HeldSlots(lines + [e]) == HeldSlots(lines) + (if e.Some? then {e.value.slot} else {})
  {
    var ls := lines + [e];
    assert forall i :: 0 <= i < |lines| ==> ls[i] == lines[i];
    assert ls[|lines|] == e;
  }

  lemma HeldSlotsPrefix(lines: seq<Option<PreviewLine>>, i: nat)
    requires i < |lines|
    ensures HeldSlots(lines[..i + 1]) == HeldSlots(lines[..i]) + (if lines[i].Some? then {lines[i].value.slot} else {})
  {
    assert lines[..i + 1] == lines[..i] + [lines[i]];
    HeldSlotsSnoc(lines[..i], lines[i]);
  }

  /** No pool slot is held twice. */
  ghost predicate DistinctSlots(lines: seq<Option<PreviewLine>>) {
    forall i, j :: 0 <= i < j < |lines| && lines[i].Some? && lines[j].Some? ==> lines[i].value.slot != lines[j].value.slot
  }

  /** Every held slot is an instance of `pool`, and slots are held only when there is a pool. */
  ghost predicate HeldIn(lines: seq<Option<PreviewLine>>, pool: Pool?)
    reads pool
  {
    forall i :: 0 <= i < |lines| ==>
      (lines[i].Some? <==> pool != null) && (lines[i].Some? ==> lines[i].value.slot < |pool.active|)
  }

  /** `after` is `before` with exactly the slots in `s` set to `flag`. */
  ghost predicate SetExactly(after: seq<bool>, before: seq<bool>, s: set<nat>, flag: bool) {
    |after| == |before| && forall k :: 0 <= k < |after| ==> after[k] == if k in s then flag else before[k]
  }

  class AttackBase {
    const attackRate: real
    const attackAnimationDelay: real
    const previewLength: real
    /** Whether an Animator sits on the GameObject (`animator?.SetTrigger`). */
    const hasAnimator: bool
    /** The shared LineRenderer pool; null when no pool service exists. */
    const linePool: Pool?
    /** The missile pool registered at Start. */
    const missilesPool: Pool?

    var passedAttackTime: real
    var isPerformingAttack: bool
    /** The suspended PerformAttackSequence waiting for its windup delay. */
    var windupPending: bool
    var windupDeadline: real
    /** ReloadBar.FillAmount. */
    var reloadFill: real
    /** Number of "Attack" triggers sent to the animator. */
    var animationTriggers: nat
    /** Episodes started, and Attack() calls granted to the concrete attack. */
    ghost var episodes: nat
    ghost var attacks: nat

    /** The pending continuation exists exactly while an episode is in
        progress, and every finished episode has granted exactly one attack. */
    ghost predicate Valid()
      reads this
    {
      && attackRate != 0.0
      && windupPending == isPerformingAttack
      && episodes == attacks + (if isPerformingAttack then 1 else 0)
      && (linePool == null || linePool != missilesPool)
    }

    constructor (attackRate: real, attackAnimationDelay: real, previewLength: real,
                 hasAnimator: bool, linePool: Pool?, missilesPool: Pool?)
      requires attackRate != 0.0
      requires linePool == null || linePool != missilesPool
      ensures Valid()
      ensures this.attackRate == attackRate && this.attackAnimationDelay == attackAnimationDelay
      ensures this.previewLength == previewLength && this.hasAnimator == hasAnimator
      ensures this.linePool == linePool && this.missilesPool == missilesPool
      ensures passedAttackTime == 0.0 && !isPerformingAttack && episodes == 0
    {
      this.attackRate := attackRate;
      this.attackAnimationDelay := attackAnimationDelay;
      this.previewLength := previewLength;
      this.hasAnimator := hasAnimator;
      this.linePool := linePool;
      this.missilesPool := missilesPool;
      passedAttackTime := 0.0;
      isPerformingAttack := false;
      windupPending := false;
      windupDeadline := 0.0;
      reloadFill := 0.0;
      animationTriggers := 0;
      episodes := 0;
      attacks := 0;
    }

    /** GetLineRendererFromPool: no pool gives null and changes nothing;
        otherwise a free line instance becomes active. */
    method GetLineRendererFromPool() returns (line: Option<nat>)
      modifies linePool
      ensures linePool == null ==> line.None?
      ensures linePool != null ==> line.Some?
      ensures line.Some? ==> linePool != null && line.value < |linePool.active| && linePool.active[line.value]
      ensures line.Some? ==> Acquires(old(linePool.active), linePool.active, line.value)
      ensures line.Some? ==> line.value < |old(linePool.active)| ==> !old(linePool.active)[line.value]
      ensures linePool != null ==> |old(linePool.active)| <= |linePool.active|
      ensures linePool != null ==> forall i :: 0 <= i < |old(linePool.active)| && Some(i) != line ==>
                                     linePool.active[i] == old(linePool.active)[i]
    {
      if linePool == null {
        return None;
      }
      var slot := linePool.Acquire();
      line := Some(slot);
    }

    /** ReturnLineRendererToPool: only deactivates the line; null is ignored. */
    method ReturnLineRendererToPool(line: Option<nat>)
      requires line.Some? ==> linePool != null && line.value < |linePool.active|
      modifies linePool
      ensures line.None? ==> linePool == null || linePool.active == old(linePool.active)
      ensures line.Some? ==> linePool.active == old(linePool.active)[line.value := false]
    {
      if line.Some? {
        linePool.Release(line.value);
      }
    }

    /** RefreshReloadBar. */
    method RefreshReloadBar()
      requires Valid()
      modifies this`reloadFill
      ensures reloadFill == ReloadFill(passedAttackTime, attackRate)
    {
      reloadFill := passedAttackTime / attackRate;
    }

    /** The synchronous start of PerformAttackSequence, up to its first yield:
        a new episode is under way, the timer is back at zero, the animator is
        triggered and the continuation waits for the windup delay.
        Its callers start it only while no episode is in progress. */
    method StartAttackSequence(now: real)
      requires Valid() && !isPerformingAttack
      modifies this`isPerformingAttack, this`passedAttackTime, this`animationTriggers,
               this`windupPending, this`windupDeadline, this`episodes
      ensures Valid()
      ensures isPerformingAttack && passedAttackTime == 0.0
      ensures windupPending && windupDeadline == now + attackAnimationDelay
      ensures animationTriggers == old(animationTriggers) + (if hasAnimator then 1 else 0)
      ensures episodes == old(episodes) + 1
    {
      isPerformingAttack := true;
      passedAttackTime := 0.0;
      if hasAnimator {
        animationTriggers := animationTriggers + 1;
      }
      windupPending := true;
      windupDeadline := now + attackAnimationDelay;
      episodes := episodes + 1;
    }

    /** TryAttack: a sequence starts only when none is in progress and the cooldown has run out. */
    method TryAttack(now: real)
      requires Valid()
      modifies this`isPerformingAttack, this`passedAttackTime, this`animationTriggers,
               this`windupPending, this`windupDeadline, this`episodes
      ensures Valid()
      ensures var start := !old(isPerformingAttack) && AttackDue(old(passedAttackTime), attackRate);
              if start then
                isPerformingAttack && passedAttackTime == 0.0
                && windupPending && windupDeadline == now + attackAnimationDelay
                && animationTriggers == old(animationTriggers) + (if hasAnimator then 1 else 0)
                && episodes == old(episodes) + 1
              else
                isPerformingAttack == old(isPerformingAttack) && passedAttackTime == old(passedAttackTime)
                && windupPending == old(windupPending) && windupDeadline == old(windupDeadline)
                && episodes == old(episodes) && animationTriggers == old(animationTriggers)
    {
      if isPerformingAttack {
        return;
      }
      if passedAttackTime >= attackRate {
        StartAttackSequence(now);
      }
    }

    /** The continuation of PerformAttackSequence after its windup wait:
        once the deadline has come, Attack() runs (fire) and the flag clears. */
    method ResumeWindup(now: real) returns (fire: bool)
      requires Valid()
      modifies this`isPerformingAttack, this`windupPending, this`attacks
      ensures Valid()
      ensures fire == (old(windupPending) && now >= windupDeadline)
      ensures fire ==> !isPerformingAttack && attacks == old(attacks) + 1
      ensures !fire ==> isPerformingAttack == old(isPerformingAttack) && attacks == old(attacks)
    {
      fire := windupPending && now >= windupDeadline;
      if fire {
        windupPending := false;
        attacks := attacks + 1;
        isPerformingAttack := false;
      }
    }

    /** OnAttackAnimationEvent: while an episode is in progress the pending
        windup is cancelled, Attack() runs (fire) and the flag clears;
        otherwise nothing happens. */
    method OnAttackAnimationEvent() returns (fire: bool)
      requires Valid()
      modifies this`isPerformingAttack, this`windupPending, this`attacks
      ensures Valid()
      ensures fire == old(isPerformingAttack)
      ensures !isPerformingAttack && !windupPending
      ensures attacks == old(attacks) + (if fire then 1 else 0)
    {
      fire := isPerformingAttack;
      if isPerformingAttack {
        windupPending := false;
        attacks := attacks + 1;
        isPerformingAttack := false;
      }
    }
  }
}

=== FILE: enemy_bullet.dfy ===
/**
 * EnemyBullet: a pooled projectile that counts its bounces, ignores its
 * owner until it has bounced once, damages what it hits (or the hit
 * object's parent) and otherwise scores, and returns to the pool when the
 * bounce limit is reached. Movement, reflection, the push on the player and
 * the hit sound are not modelled.
 */
module Projectiles {
  import opened Options
  import opened Pools
  import opened Health

  /** The arguments of EnemyBullet.Initialize. */
  datatype BulletInit = BulletInit(speed: real, angleError: real, bounces: int)

  /** What a collision shows the bullet: the identity of the hit GameObject,
      whether it is the player, and the HealthCompponent on it and on its
      parent (null when absent, or when there is no parent). */
  datatype Collision = Collision(objectId: nat, isPlayer: bool, health: HealthComponent?, parentHealth: HealthComponent?)

  /** Who takes the damage of a hit. */
  datatype Damaged = HitObject | HitParent | NoHealth

  /** The damage popup: "Broken" at 0 hit points, else "hp left: n". */
  datatype Popup = Broken | HpLeft(hp: int)

  /** What a collision did, as seen from outside the bullet. */
  datatype HitOutcome =
    | Ignored
    | Hit(stunned: bool, damaged: Damaged, popup: Option<Popup>, score: nat, deactivated: bool)

  /** Score for a hit on something without health. */
  const HitScore: nat := 5

  /** The object's own health component wins; the parent's is used only when the object has none. */
  function Classify(objectHasHealth: bool, parentHasHealth: bool): (d: Damaged)
    ensures d == HitObject <==> objectHasHealth
    ensures d == HitParent <==> !objectHasHealth && parentHasHealth
    ensures d == NoHealth <==> !objectHasHealth && !parentHasHealth
  {
    if objectHasHealth then HitObject else if parentHasHealth then HitParent else NoHealth
  }

  function ScoreFor(d: Damaged): nat {
    if d == NoHealth then HitScore else 0
  }

  /** A hit scores, and scores 5, exactly when neither the object nor its parent has health. */
  lemma ScoreOnlyWithoutHealth(objectHasHealth: bool, parentHasHealth: bool)
    ensures var s := ScoreFor(Classify(objectHasHealth, parentHasHealth));
            (s > 0 <==> !objectHasHealth && !parentHasHealth) && (s == 0 || s == 5)
  {
  }

  function PopupFor(hp: int): Popup {
    if hp == 0 then Broken else HpLeft(hp)
  }

  /** The owner is ignored only before the first bounce. */
  predicate IgnoresHit(hitsOwner: bool, bounces: int) {
    hitsOwner && bounces == 0
  }

  /** The bounce counter after a counted hit, and whether the bullet is switched off by it. */
  function AfterBounce(bounces: int, limit: int): (r: (int, bool))
    ensures r.1 <==> bounces + 1 >= limit
    ensures r.0 == if r.1 then 0 else bounces + 1
    ensures !r.1 ==> r.0 < limit
  {
    if bounces + 1 >= limit then (0, true) else (bounces + 1, false)
  }

  /** The bounce counter of a bullet after k counted hits from 0. */
  function BouncesAfter(limit: int, k: nat): int {
    if k == 0 then 0 else AfterBounce(BouncesAfter(limit, k - 1), limit).0
  }

  /** Before the limit is reached the counter is the number of hits so far. */
  lemma {:induction false} BouncesCountHits(limit: int, k: nat)
    requires k < limit
    ensures BouncesAfter(limit, k) == k
  {
    if k > 0 {
      BouncesCountHits(limit, k - 1);
    }
  }

  /** Starting from 0, a bullet survives its first limit - 1 hits and is
      switched off by hit number `limit`, which also resets the counter. */
  lemma DeactivatedOnLimitthHit(limit: int, k: nat)
    requires 1 <= k <= limit
    ensures AfterBounce(BouncesAfter(limit, k - 1), limit).1 <==> k == limit
    ensures BouncesAfter(limit, limit) == 0
  {
    BouncesCountHits(limit, k - 1);
    BouncesCountHits(limit, limit - 1);
  }

  /** The life of a pooled bullet repeats every `limit` hits. */
  lemma {:induction false} BouncesPeriodic(limit: int, k: nat)
    requires limit >= 1
    ensures BouncesAfter(limit, k + limit) == BouncesAfter(limit, k)
  {
    if k == 0 {
      DeactivatedOnLimitthHit(limit, limit);
    } else {
      BouncesPeriodic(limit, k - 1);
      assert BouncesAfter(limit, k + limit) == AfterBounce(BouncesAfter(limit, k - 1 + limit), limit).0;
    }
  }

  /** A limit below 1 switches the bullet off on every counted hit. */
  lemma SmallLimitDiesOnFirstHit(limit: int, bounces: int)
    requires limit <= 1 && bounces >= 0
    ensures AfterBounce(bounces, limit) == (0, true)
  {
  }

  class EnemyBullet {
    /** The pool this bullet belongs to and its own slot there. */
    const pool: Pool
    const slot: nat

    var speed: real
    var angleError: real
    var bouncesBeforeDie: int
    var bounces: int
    /** _owner: the GameObject given to Init, if any. */
    var owner: Option<nat>

    ghost predicate Valid()
      reads this, pool
    {
      slot < |pool.active| && bounces >= 0
    }

    constructor (pool: Pool, slot: nat, speed: real, angleError: real, bouncesBeforeDie: int)
      requires slot < |pool.active|
      ensures Valid()
      ensures this.pool == pool && this.slot == slot
      ensures this.speed == speed && this.angleError == angleError && this.bouncesBeforeDie == bouncesBeforeDie
      ensures bounces == 0 && owner.None?
    {
      this.pool := pool;
      this.slot := slot;
      this.speed := speed;
      this.angleError := angleError;
      this.bouncesBeforeDie := bouncesBeforeDie;
      bounces := 0;
      owner := None;
    }

    method Init(owner: nat)
      modifies this`owner
      ensures this.owner == Some(owner)
    {
      this.owner := Some(owner);
    }

    /** Initialize: speed, bounce limit and angle error; the bounce counter is left as it is. */
    method Initialize(speed: real, angleError: real, bounces: int)
      modifies this`speed, this`bouncesBeforeDie, this`angleError
      ensures this.speed == speed && this.bouncesBeforeDie == bounces && this.angleError == angleError
    {
      this.speed := speed;
      bouncesBeforeDie := bounces;
      this.angleError := angleError;
    }

    /** RefreshBullet: the counter restarts and the bullet goes back to its pool. */
    method RefreshBullet()
      requires Valid()
      modifies this`bounces, pool
      ensures Valid() && bounces == 0
      ensures pool.active == old(pool.active)[slot := false]
    {
      bounces := 0;
      pool.Release(slot);
    }

    /** OnCollisionEnter. A hit on the owner before any bounce changes nothing.
        Any other hit stuns a player, damages the object's health or else its
        parent's, scores 5 only when neither has health, counts one bounce and
        switches the bullet off at the bounce limit. */
    method OnCollisionEnter(c: Collision) returns (outcome: HitOutcome)
      requires Valid()
      modifies this`bounces, pool, c.health, c.parentHealth
      ensures Valid()
      ensures IgnoresHit(owner == Some(c.objectId), old(bounces)) ==>
                && outcome == Ignored && bounces == old(bounces) && pool.active == old(pool.active)
                && (c.health != null ==> unchanged(c.health))
                && (c.parentHealth != null ==> unchanged(c.parentHealth))
      ensures !IgnoresHit(owner == Some(c.objectId), old(bounces)) ==>
                && outcome.Hit?
                && outcome.stunned == c.isPlayer
                && outcome.damaged == Classify(c.health != null, c.parentHealth != null)
                && outcome.score == ScoreFor(outcome.damaged)
                && (bounces, outcome.deactivated) == AfterBounce(old(bounces), bouncesBeforeDie)
                && pool.active == (if outcome.deactivated then old(pool.active)[slot := false] else old(pool.active))
      ensures outcome.Hit? && outcome.damaged == HitObject ==>
                && c.health.currentHealth == old(c.health.currentHealth) - 1
                && c.health.active == (old(c.health.active) && !Dead(c.health.currentHealth))
                && outcome.popup == Some(PopupFor(c.health.currentHealth))
                && (c.parentHealth != null && c.parentHealth != c.health ==> unchanged(c.parentHealth))
      ensures outcome.Hit? && outcome.damaged == HitParent ==>
                && c.parentHealth.currentHealth == old(c.parentHealth.currentHealth) - 1
                && c.parentHealth.active == (old(c.parentHealth.active) && !Dead(c.parentHealth.currentHealth))
                && outcome.popup == Some(PopupFor(old(c.parentHealth.currentHealth)))
      ensures outcome.Hit? && outcome.damaged == NoHealth ==> outcome.popup.None?
    {
      if owner == Some(c.objectId) && bounces == 0 {
        return Ignored;
      }
      var damaged: Damaged;
      var popup: Option<Popup>;
      if c.health != null {
        damaged := HitObject;
        c.health.TakeOneDamage();
        popup := Some(PopupFor(c.health.currentHealth));
      } else if c.parentHealth != null {
        damaged := HitParent;
        popup := Some(PopupFor(c.parentHealth.currentHealth));
        c.parentHealth.TakeOneDamage();
      } else {
        damaged := NoHealth;
        popup := None;
      }
      var score := if damaged == NoHealth then HitScore else 0;
      bounces := bounces + 1;
      var deactivated := bounces >= bouncesBeforeDie;
      if deactivated {
        RefreshBullet();
      }
      outcome := Hit(c.isPlayer, damaged, popup, score, deactivated);
    }
  }
}

=== FILE: enemy_script.dfy ===
/**
 * EnemyScript: an enemy that fires one bullet at a time. Every fixed step,
 * while it has a target and no bullet of its own is still active, a timer
 * runs up to the shoot delay; then one bullet is taken from the pool and
 * the timer starts again from zero.
 */
module SingleShot {
  import opened Options
  import opened Pools
  import opened Projectiles

  class EnemyScript {
    const shootDelay: real
    const bulletSpeed: real
    const shootError: real
    const bulletBounces: int
    /** The pool behind _poolManager. */
    const poolManager: Pool

    /** Whether _target is set. */
    var hasTarget: bool
    /** _bullet: the pool slot of the last bullet fired, if any. */
    var bullet: Option<nat>
    var timer: real

    ghost predicate Valid()
      reads this, poolManager
    {
      bullet.Some? ==> bullet.value < |poolManager.active|
    }

    constructor (poolManager: Pool, hasTarget: bool, shootDelay: real, bulletSpeed: real, shootError: real, bulletBounces: int)
      ensures Valid()
      ensures this.poolManager == poolManager && this.hasTarget == hasTarget
      ensures this.shootDelay == shootDelay && this.bulletSpeed == bulletSpeed
      ensures this.shootError == shootError && this.bulletBounces == bulletBounces
      ensures bullet.None? && timer == 0.0
    {
      this.poolManager := poolManager;
      this.hasTarget := hasTarget;
      this.shootDelay := shootDelay;
      this.bulletSpeed := bulletSpeed;
      this.shootError := shootError;
      this.bulletBounces := bulletBounces;
      bullet := None;
      timer := 0.0;
    }

    /** ShootCondition: a target, and no bullet of this enemy still active. */
    function ShootCondition(): (ok: bool)
      requires Valid()
      reads this, poolManager
      ensures ok ==> hasTarget
      ensures hasTarget && bullet.None? ==> ok
      ensures bullet.Some? ==> (ok <==> hasTarget && !poolManager.active[bullet.value])
    {
      hasTarget && (bullet.None? || !poolManager.active[bullet.value])
    }

    /** FixedUpdate / Shoot. Without the condition nothing changes. With it,
        the timer grows by the fixed step until it reaches the delay; then
        exactly one bullet is acquired, initialised with the configured speed,
        error and bounce limit, and the timer is reset. */
    method FixedUpdate(fixedDeltaTime: real) returns (shot: Option<BulletInit>)
      requires Valid()
      modifies this`timer, this`bullet, poolManager
      ensures Valid()
      ensures !old(ShootCondition()) ==>
                timer == old(timer) && bullet == old(bullet) && shot.None? && poolManager.active == old(poolManager.active)
      ensures old(ShootCondition()) && old(timer) < shootDelay ==>
                timer == old(timer) + fixedDeltaTime && bullet == old(bullet) && shot.None?
                && poolManager.active == old(poolManager.active)
      ensures old(ShootCondition()) && old(timer) >= shootDelay ==>
                && timer == 0.0 && bullet.Some?
                && Acquires(old(poolManager.active), poolManager.active, bullet.value)
                && Grew(old(poolManager.active), poolManager.active, 1)
                && shot == Some(BulletInit(bulletSpeed, shootError, bulletBounces))
      ensures shot.Some? ==> !ShootCondition()
    {
      if hasTarget && (bullet.None? || !poolManager.active[bullet.value]) {
        if timer < shootDelay {
          timer := timer + fixedDeltaTime;
          return None;
        }
        timer := 0.0;
        var slot := poolManager.Acquire();
        bullet := Some(slot);
        shot := Some(BulletInit(bulletSpeed, shootError, bulletBounces));
      } else {
        shot := None;
      }
    }
  }
}

=== FILE: enemy_wave.dfy ===
/**
 * EnemyWave: a hard-coded wave timeline. A key press starts it once; the
 * spawn coroutine then activates the prepared enemies step by step, waiting
 * a growing delay between steps. The coroutine is a resume index with a
 * deadline; the scheduler resumes it on the first frame at or after the
 * deadline.
 */
module Waves {

  /** The six prepared enemy objects. */
  datatype Enemy = Gloom | Cactus | Golem | GloomLeft | GloomRight | FireGolem

  const Duration: real := 15.0
  const AdditionalDelay: real := 2.0
  const StepCount: nat := 5

  /** The activation steps, in order; GloomLeft and GloomRight share a step. */
  function Steps(): (s: seq<seq<Enemy>>)
    ensures |s| == StepCount
  {
    [[Gloom], [Cactus], [Golem], [GloomLeft, GloomRight], [FireGolem]]
  }

  /** The wait after step k: the duration plus k additional delays. */
  function WaitAfter(k: nat): (w: real)
    ensures w >= Duration
  {
    Duration + k as real * AdditionalDelay
  }

  /** Earliest time of step k after the start: the sum of the waits before it. */
  function Offset(k: nat): (t: real)
    ensures t >= 0.0
  {
    if k == 0 then 0.0 else Offset(k - 1) + WaitAfter(k - 1)
  }

  /** The four waits are 15, 17, 19 and 21 seconds, so the steps fall at 0, 15, 32, 51 and 72 seconds. */
  lemma ScheduleTimes()
    ensures [WaitAfter(0), WaitAfter(1), WaitAfter(2), WaitAfter(3)] == [15.0, 17.0, 19.0, 21.0]
    ensures [Offset(0), Offset(1), Offset(2), Offset(3), Offset(4)] == [0.0, 15.0, 32.0, 51.0, 72.0]
  {
    assert Offset(1) == 15.0;
    assert Offset(2) == 32.0;
    assert Offset(3) == 51.0;
  }

  /** The enemies of the given steps, in activation order. */
  function Flatten(steps: seq<seq<Enemy>>): seq<Enemy> {
    if |steps| == 0 then [] else Flatten(steps[..|steps| - 1]) + steps[|steps| - 1]
  }

  lemma FlattenSnoc(steps: seq<seq<Enemy>>, k: nat)
    requires k < |steps|
    ensures Flatten(steps[..k + 1]) == Flatten(steps[..k]) + steps[k]
  {
    assert steps[..k + 1][..k] == steps[..k];
  }

  /** Activating the first k steps activates a prefix of the whole wave. */
  lemma {:induction false} FlattenPrefix(steps: seq<seq<Enemy>>, k: nat)
    requires k <= |steps|
    ensures Flatten(steps[..k]) <= Flatten(steps)
    decreases |steps| - k
  {
    if k < |steps| {
      FlattenPrefix(steps, k + 1);
      FlattenSnoc(steps, k);
    } else {
      assert steps[..k] == steps;
    }
  }

  /** The whole wave activates Gloom, Cactus, Golem, GloomLeft, GloomRight, FireGolem, each once. */
  lemma ActivationOrder()
    ensures Flatten(Steps()) == [Gloom, Cactus, Golem, GloomLeft, GloomRight, FireGolem]
  {
    var s := Steps();
    assert s[..0] == [];
    FlattenSnoc(s, 0);
    FlattenSnoc(s, 1);
    FlattenSnoc(s, 2);
    FlattenSnoc(s, 3);
    FlattenSnoc(s, 4);
    assert s[..5] == s;
  }

  /** Each step came at least its wait after the previous one. */
  ghost predicate Paced(times: seq<real>)
  {
    forall k :: 0 < k < |times| ==> times[k] >= times[k - 1] + WaitAfter(k - 1)
  }

  /** Paced steps fall no earlier than their offsets from the first one. */
  lemma {:induction false} PacedMeetsOffsets(times: seq<real>, k: nat)
    requires Paced(times) && k < |times|
    ensures times[k] >= times[0] + Offset(k)
  {
    if k > 0 {
      PacedMeetsOffsets(times, k - 1);
    }
  }

  class EnemyWave {
    /** StartText's GameObject is shown. */
    var startTextActive: bool
    var isStarted: bool
    /** SpawnWave is suspended and resumes at deadline with step nextStep. */
    var spawning: bool
    var nextStep: nat
    var deadline: real
    /** The SetActive(true) calls made so far, in order. */
    var activated: seq<Enemy>
    /** When each step ran. */
    ghost var stepTimes: seq<real>

    ghost predicate Valid()
      reads this
    {
      && nextStep <= StepCount
      && activated == Flatten(Steps()[..nextStep])
      && |stepTimes| == nextStep
      && Paced(stepTimes)
      && (spawning <==> isStarted && nextStep < StepCount)
      && (!isStarted ==> nextStep == 0)
      && (isStarted ==> nextStep >= 1)
      && (spawning ==> deadline == stepTimes[nextStep - 1] + WaitAfter(nextStep - 1))
    }

    constructor ()
      ensures Valid() && startTextActive && !isStarted && activated == []
    {
      startTextActive := true;
      isStarted := false;
      spawning := false;
      nextStep := 0;
      deadline := 0.0;
      activated := [];
      stepTimes := [];
    }

    /** Update: before the start, Return or KeypadEnter hides the start text and
        starts SpawnWave, which activates Gloom at once; after the start it does nothing. */
    method Update(returnDown: bool, keypadEnterDown: bool, now: real)
      requires Valid()
      modifies this
      ensures Valid()
      ensures old(isStarted) || !(returnDown || keypadEnterDown) ==>
                && isStarted == old(isStarted) && startTextActive == old(startTextActive)
                && activated == old(activated) && spawning == old(spawning) && deadline == old(deadline)
                && stepTimes == old(stepTimes)
      ensures !old(isStarted) && (returnDown || keypadEnterDown) ==>
                && isStarted && !startTextActive && activated == [Gloom]
                && spawning && deadline == now + Duration && stepTimes == [now]
    {
      if isStarted {
        return;
      }
      if returnDown || keypadEnterDown {
        startTextActive := false;
        isStarted := true;
        activated := activated + [Gloom];
        FlattenSnoc(Steps(), 0);
        nextStep := 1;
        stepTimes := [now];
        deadline := now + Duration;
        spawning := true;
      }
    }

    /** One resumption of SpawnWave: when its wait is over it activates the next
        step's enemies and, unless that was the last step, waits again. */
    method ResumeSpawnWave(now: real)
      requires Valid()
      modifies this`activated, this`nextStep, this`deadline, this`spawning, this`stepTimes
      ensures Valid()
      ensures old(spawning) && now >= old(deadline) ==>
                && nextStep == old(nextStep) + 1
                && activated == old(activated) + Steps()[old(nextStep)]
                && stepTimes == old(stepTimes) + [now]
                && (spawning ==> deadline == now + WaitAfter(old(nextStep)))
      ensures !(old(spawning) && now >= old(deadline)) ==>
                activated == old(activated) && nextStep == old(nextStep) && spawning == old(spawning)
                && deadline == old(deadline)
    {
      if !spawning || now < deadline {
        return;
      }
      FlattenSnoc(Steps(), nextStep);
      if nextStep == 1 {
        activated := activated + [Cactus];
        deadline := now + (Duration + AdditionalDelay);
      } else if nextStep == 2 {
        activated := activated + [Golem];
        deadline := now + (Duration + AdditionalDelay * 2.0);
      } else if nextStep == 3 {
        activated := activated + [GloomLeft];
        activated := activated + [GloomRight];
        deadline := now + (Duration + AdditionalDelay * 3.0);
      } else {
        activated := activated + [FireGolem];
        spawning := false;
      }
      stepTimes := stepTimes + [now];
      nextStep := nextStep + 1;
    }

    /** The enemies activated so far come in the wave's order, and step k ran no
        earlier than Offset(k) after the start. */
    lemma ActivatedInOrderAndOnTime(k: nat)
      requires Valid() && k < nextStep
      ensures activated <= [Gloom, Cactus, Golem, GloomLeft, GloomRight, FireGolem]
      ensures stepTimes[k] >= stepTimes[0] + Offset(k)
    {
      FlattenPrefix(Steps(), nextStep);
      ActivationOrder();
      PacedMeetsOffsets(stepTimes, k);
    }
  }
}

=== FILE: health_component.dfy ===
/**
 * HealthCompponent (spelled so in the source): a hit-point counter on a
 * GameObject. The counter is never initialised from MaxHealth, so a fresh
 * component holds 0 hit points, and it is never clamped.
 */
module Health {

  class HealthComponent {
    const maxHealth: int
    var currentHealth: int
    /** activeSelf of the GameObject the component sits on. */
    var active: bool

    constructor (maxHealth: int)
      ensures this.maxHealth == maxHealth
      ensures currentHealth == 0 && active
    {
      this.maxHealth := maxHealth;
      currentHealth := 0;
      active := true;
    }

    /** One point of damage; the object is switched off once fewer than one point is left. */
    method TakeOneDamage()
      modifies this
      ensures currentHealth == old(currentHealth) - 1
      ensures active == (old(active) && !Dead(currentHealth))
    {
      currentHealth := currentHealth - 1;
      if currentHealth < 1 {
        Die();
      }
    }

    /** Deactivates the GameObject and leaves the hit points alone. */
    method Die()
      modifies this`active
      ensures !active
    {
      active := false;
    }
  }

  /** The death test applied after each hit. */
  predicate Dead(health: int) {
    health < 1
  }

  /** Because the counter starts at 0, the very first hit on a fresh
      component leaves -1 hit points and deactivates the object, whatever MaxHealth says. */
  method FirstHitOnFreshComponent(maxHealth: int) returns (health: int, alive: bool)
    ensures health == -1 && !alive
  {
    var c := new HealthComponent(maxHealth);
    c.TakeOneDamage();
    health, alive := c.currentHealth, c.active;
  }
}

=== FILE: multiple_line_attack.dfy ===
/**
 * MultipleLineAttack: an attack that fires a fan of evenly spaced bullets,
 * repeated in several volleys, and shows one preview line per bullet
 * direction in the last quarter of the cooldown.
 *
 * Angles are yaw offsets in degrees from the attacker's facing.
 */
module SpreadAttack {
  import opened Options
  import opened Pools
  import opened AttackCycle

  /** Mathf.Max(1, x): AtLeastOne(_lines) lines are used, for firing and for
      previews, and one attack fires AtLeastOne(_queues) volleys. */
  function AtLeastOne(x: int): (n: nat)
    ensures n >= 1 && n >= x
    ensures x >= 1 ==> n == x
    ensures x < 1 ==> n == 1
  {
    if x > 1 then x else 1
  }

  /** Angle between neighbouring lines; a single line gets no step. */
  function SpreadStep(spread: real, n: nat): real {
    if n > 1 then spread / (n - 1) as real else 0.0
  }

  /** Angle of line i of n: the fan starts at -spread/2. */
  function LineAngle(spread: real, n: nat, i: nat): real {
    -spread * 0.5 + i as real * SpreadStep(spread, n)
  }

  /** The angles of one volley, in firing order. */
  function SpreadAngles(spread: real, n: nat): (r: seq<real>)
    ensures |r| == n
  {
    seq(n, i requires 0 <= i < n => LineAngle(spread, n, i))
  }

  lemma StepSpansSpread(spread: real, n: nat)
    requires n > 1
    ensures (n - 1) as real * SpreadStep(spread, n) == spread
  {
  }

  /** With several lines the fan runs from -spread/2 to +spread/2 inclusive. */
  lemma SpreadEndsAtHalfAngles(spread: real, n: nat)
    requires n > 1
    ensures SpreadAngles(spread, n)[0] == -spread / 2.0
    ensures SpreadAngles(spread, n)[n - 1] == spread / 2.0
  {
    StepSpansSpread(spread, n);
  }

  /** Neighbouring lines are one step apart. */
  lemma SpreadEvenlySpaced(spread: real, n: nat, i: nat)
    requires i + 1 < n
    ensures SpreadAngles(spread, n)[i + 1] - SpreadAngles(spread, n)[i] == spread / (n - 1) as real
  {
  }

  /** The fan is symmetric about the facing direction. */
  lemma SpreadSymmetric(spread: real, n: nat, i: nat)
    requires n > 1 && i < n
    ensures SpreadAngles(spread, n)[n - 1 - i] == -SpreadAngles(spread, n)[i]
  {
    StepSpansSpread(spread, n);
  }

  /** Every line lies within the fan. */
  lemma SpreadWithinHalfAngles(spread: real, n: nat, i: nat)
    requires spread >= 0.0 && i < n
    ensures -spread / 2.0 <= SpreadAngles(spread, n)[i] <= spread / 2.0
  {
    if n > 1 {
      StepSpansSpread(spread, n);
      assert i as real * SpreadStep(spread, n) <= (n - 1) as real * SpreadStep(spread, n);
    }
  }

  /** A single line is fired at the left edge -spread/2, not straight ahead. */
  lemma SingleLineFiresAtLeftEdge(spread: real)
    ensures SpreadAngles(spread, 1) == [-spread / 2.0]
    ensures spread != 0.0 ==> SpreadAngles(spread, 1)[0] != 0.0
  {
  }

  /** The default configuration: three lines over 45 degrees. */
  lemma ThreeLinesOver45Degrees()
    ensures SpreadAngles(45.0, 3) == [-22.5, 0.0, 22.5]
  {
    assert SpreadAngles(45.0, 3)[1] == 0.0;
  }

  /** FireQueues waits after volley q only if q < _queues - 1: exactly when
      another volley follows, so there is no wait after the last one. */
  lemma WaitOnlyBetweenVolleys(q: nat, queues: int)
    requires q < AtLeastOne(queues)
    ensures (q < queues - 1) <==> (q + 1 < AtLeastOne(queues))
  {
  }

  /** k copies of a volley, fired one after the other. */
  function Repeat(volley: seq<real>, k: nat): (r: seq<real>)
    ensures |r| == k * |volley|
  {
    if k == 0 then [] else Repeat(volley, k - 1) + volley
  }

  /** Bullet r of volley q of a repeated volley is line r of the volley. */
  lemma {:induction false} RepeatAt(volley: seq<real>, k: nat, q: nat, r: nat)
    requires q < k && r < |volley|
    ensures q * |volley| + r < |Repeat(volley, k)|
    ensures Repeat(volley, k)[q * |volley| + r] == volley[r]
  {
    var n := |volley|;
    var front := Repeat(volley, k - 1);
    assert Repeat(volley, k) == front + volley;
    assert |front| == (k - 1) * n;
    if q < k - 1 {
      RepeatAt(volley, k - 1, q, r);
    } else {
      assert q * n == |front|;
    }
  }

  /** The angles of every bullet one whole attack fires. */
  function AttackAngles(spread: real, lines: int, queues: int): (r: seq<real>)
    ensures |r| == AtLeastOne(queues) * AtLeastOne(lines)
  {
    Repeat(SpreadAngles(spread, AtLeastOne(lines)), AtLeastOne(queues))
  }

  /** The pool instances a preview array holds; none for the null array. */
  ghost function HeldBy(previews: Option<seq<Option<PreviewLine>>>): set<nat> {
    if previews.Some? then HeldSlots(previews.value) else {}
  }

  /** A drawn preview array: n entries, the same instances as before when the
      array was kept, each drawn to its wall hit or to full length. */
  ghost predicate PreviewsDrawn(before: Option<seq<Option<PreviewLine>>>, ls: seq<Option<PreviewLine>>,
                                n: nat, wallHits: seq<Option<real>>, previewLength: real)
  {
    && |ls| == n && |wallHits| == n
    && (before.Some? && |before.value| == n ==> HeldSlots(ls) == HeldSlots(before.value))
    && (forall i :: 0 <= i < |ls| && ls[i].Some? ==> ls[i].value.reach == PreviewReach(wallHits[i], previewLength))
  }

  /** The line pool after a preview array holding oldHeld was replaced by one
      holding held: the held instances are active, the newly held ones were
      free before (or are new), the dropped ones released, and every other
      instance as it was. */
  ghost predicate PoolFollowsPreviews(oldHeld: set<nat>, held: set<nat>, before: seq<bool>, after: seq<bool>) {
    && |before| <= |after|
    && (forall s :: s in held ==> s < |after| && after[s])
    && (forall s :: s in held && s !in oldHeld && s < |before| ==> !before[s])
    && (forall s :: s in oldHeld && s !in held ==> s < |after| && !after[s])
    && (forall s :: 0 <= s < |before| && s !in oldHeld && s !in held ==> after[s] == before[s])
  }

  class MultipleLineAttack {
    const cycle: AttackBase
    const spreadAngle: real
    const lines: int
    const queues: int
    const timeBetweenQueues: real

    /** True for the whole volley sequence of one attack. */
    var isAttacking: bool
    /** The suspended FireQueues: it waits until volleyDeadline, then fires volley nextVolley. */
    var volleyPending: bool
    var volleyDeadline: real
    var nextVolley: nat
    /** _previewLines: None is the null array. */
    var previewLines: Option<seq<Option<PreviewLine>>>
    /** Angles of the bullets created by the current or last attack, in order. */
    ghost var firedAngles: seq<real>
    /** Volleys fired and waits taken by the current or last attack. */
    ghost var volleysFired: nat
    ghost var volleyWaits: nat

    /** The held previews are distinct instances of the line pool. */
    ghost predicate PreviewsValid()
      reads this, cycle, cycle.linePool
    {
      previewLines.Some? ==> DistinctSlots(previewLines.value) && HeldIn(previewLines.value, cycle.linePool)
    }

    /** The windup and the volley sequence never overlap; while attacking,
        volleys are separated by waits; a finished attack fired every volley
        with one wait fewer than volleys; every bullet of the attack so far
        came from the fan. */
    ghost predicate Valid()
      reads this, cycle, cycle.linePool
    {
      && cycle.Valid()
      && !(isAttacking && cycle.isPerformingAttack)
      && volleyPending == isAttacking
      && (isAttacking ==> 0 < volleysFired < AtLeastOne(queues) && nextVolley == volleysFired && volleyWaits == volleysFired)
      && (!isAttacking ==> volleysFired == 0 || (volleysFired == AtLeastOne(queues) && volleyWaits == volleysFired - 1))
      && firedAngles == (if cycle.missilesPool == null then [] else Repeat(SpreadAngles(spreadAngle, AtLeastOne(lines)), volleysFired))
      && PreviewsValid()
    }

    /** The state from which FireQueues runs on: at its start or after a wait. */
    ghost predicate ReadyToFire()
      reads this, cycle, cycle.linePool
    {
      && cycle.Valid()
      && isAttacking && !cycle.isPerformingAttack
      && nextVolley == volleysFired < AtLeastOne(queues) && volleyWaits == volleysFired
      && firedAngles == (if cycle.missilesPool == null then [] else Repeat(SpreadAngles(spreadAngle, AtLeastOne(lines)), volleysFired))
      && PreviewsValid()
    }

    /** Once an attack has run to its end, the bullets fired are exactly
        AttackAngles: every volley at the spread's angles, queue after queue. */
    lemma FinishedAttackFiredAttackAngles()
      requires Valid() && !isAttacking && volleysFired > 0 && cycle.missilesPool != null
      ensures firedAngles == AttackAngles(spreadAngle, lines, queues)
    {
    }

    constructor (cycle: AttackBase, spreadAngle: real, lines: int, queues: int, timeBetweenQueues: real)
      requires cycle.Valid() && !cycle.isPerformingAttack
      ensures Valid()
      ensures this.cycle == cycle && this.spreadAngle == spreadAngle && this.lines == lines
      ensures this.queues == queues && this.timeBetweenQueues == timeBetweenQueues
      ensures !isAttacking && previewLines.None?
    {
      this.cycle := cycle;
      this.spreadAngle := spreadAngle;
      this.lines := lines;
      this.queues := queues;
      this.timeBetweenQueues := timeBetweenQueues;
      isAttacking := false;
      volleyPending := false;
      volleyDeadline := 0.0;
      nextVolley := 0;
      previewLines := None;
      firedAngles := [];
      volleysFired := 0;
      volleyWaits := 0;
    }

    /** Update: the cooldown runs only while neither the windup nor the volleys are
        in progress; the bar shows the cooldown before any trigger; an attack
        starts when idle and due; then the previews follow the new state. */
    method Update(now: real, deltaTime: real, wallHits: seq<Option<real>>)
      requires Valid() && |wallHits| == AtLeastOne(lines)
      modifies this`previewLines, cycle, cycle.linePool
      ensures Valid()
      ensures isAttacking == old(isAttacking)
      ensures var busy := old(isAttacking) || old(cycle.isPerformingAttack);
              var passed := if busy then old(cycle.passedAttackTime) else old(cycle.passedAttackTime) + deltaTime;
              && cycle.reloadFill == ReloadFill(passed, cycle.attackRate)
              && if !busy && AttackDue(passed, cycle.attackRate) then
                   && cycle.isPerformingAttack && cycle.passedAttackTime == 0.0
                   && cycle.windupPending && cycle.windupDeadline == now + cycle.attackAnimationDelay
                   && cycle.animationTriggers == old(cycle.animationTriggers) + (if cycle.hasAnimator then 1 else 0)
                   && cycle.episodes == old(cycle.episodes) + 1
                 else
                   && cycle.isPerformingAttack == old(cycle.isPerformingAttack)
                   && cycle.passedAttackTime == passed
                   && cycle.windupPending == old(cycle.windupPending)
                   && cycle.windupDeadline == old(cycle.windupDeadline)
                   && cycle.animationTriggers == old(cycle.animationTriggers)
                   && cycle.episodes == old(cycle.episodes)
      ensures previewLines.Some? <==> ShowPreview(cycle.passedAttackTime, cycle.attackRate, isAttacking)
      ensures ShowPreview(cycle.passedAttackTime, cycle.attackRate, isAttacking) ==>
                && PreviewsDrawn(old(previewLines), previewLines.value, AtLeastOne(lines), wallHits, cycle.previewLength)
                && (cycle.linePool != null ==>
                      PoolFollowsPreviews(HeldBy(old(previewLines)), HeldSlots(previewLines.value),
                                          old(cycle.linePool.active), cycle.linePool.active))
      ensures !ShowPreview(cycle.passedAttackTime, cycle.attackRate, isAttacking) && cycle.linePool != null ==>
                SetExactly(cycle.linePool.active, old(cycle.linePool.active), HeldBy(old(previewLines)), false)
    {
      if !isAttacking && !cycle.isPerformingAttack {
        cycle.passedAttackTime := cycle.passedAttackTime + deltaTime;
      }
      cycle.RefreshReloadBar();
      TryAttackMultiple(now);
      UpdatePreviewLines(wallHits);
    }

    /** TryAttackMultiple: a new episode starts only when neither the windup
        nor the volleys are in progress and the cooldown has run out. */
    method TryAttackMultiple(now: real)
      requires Valid()
      modifies cycle`isPerformingAttack, cycle`passedAttackTime, cycle`animationTriggers,
               cycle`windupPending, cycle`windupDeadline, cycle`episodes
      ensures Valid()
      ensures var start := !old(cycle.isPerformingAttack) && !isAttacking && AttackDue(old(cycle.passedAttackTime), cycle.attackRate);
              if start then
                && cycle.isPerformingAttack && cycle.passedAttackTime == 0.0
                && cycle.windupPending && cycle.windupDeadline == now + cycle.attackAnimationDelay
                && cycle.animationTriggers == old(cycle.animationTriggers) + (if cycle.hasAnimator then 1 else 0)
                && cycle.episodes == old(cycle.episodes) + 1
              else
                && cycle.isPerformingAttack == old(cycle.isPerformingAttack)
                && cycle.passedAttackTime == old(cycle.passedAttackTime)
                && cycle.windupPending == old(cycle.windupPending)
                && cycle.windupDeadline == old(cycle.windupDeadline)
                && cycle.animationTriggers == old(cycle.animationTriggers)
                && cycle.episodes == old(cycle.episodes)
    {
      if cycle.isPerformingAttack || isAttacking {
        return;
      }
      if cycle.passedAttackTime >= cycle.attackRate {
        cycle.StartAttackSequence(now);
      }
    }

    /** Returns every held preview to the pool. */
    method ReturnPreviews(ls: seq<Option<PreviewLine>>)
      requires HeldIn(ls, cycle.linePool)
      modifies cycle.linePool
      ensures cycle.linePool != null ==> SetExactly(cycle.linePool.active, old(cycle.linePool.active), HeldSlots(ls), false)
    {
      var i := 0;
      while i < |ls|
        invariant 0 <= i <= |ls|
        invariant cycle.linePool != null ==> SetExactly(cycle.linePool.active, old(cycle.linePool.active), HeldSlots(ls[..i]), false)
      {
        HeldSlotsPrefix(ls, i);
        if ls[i].Some? {
          cycle.ReturnLineRendererToPool(Some(ls[i].value.slot));
        }
        i := i + 1;
      }
      assert ls[..i] == ls;
    }

    /** Leases n previews: with a pool, n distinct instances that were free
        and are now active; without one, n nulls. */
    method LeasePreviews(n: nat) returns (ls: seq<Option<PreviewLine>>)
      modifies cycle.linePool
      ensures |ls| == n && DistinctSlots(ls) && HeldIn(ls, cycle.linePool)
      ensures forall i :: 0 <= i < n && ls[i].Some? ==> ls[i].value.reach == 0.0
      ensures cycle.linePool != null ==>
                && |old(cycle.linePool.active)| <= |cycle.linePool.active|
                && (forall s :: s in HeldSlots(ls) ==> s < |cycle.linePool.active| && cycle.linePool.active[s])
                && (forall s :: s in HeldSlots(ls) && s < |old(cycle.linePool.active)| ==> !old(cycle.linePool.active)[s])
                && (forall s :: 0 <= s < |old(cycle.linePool.active)| && s !in HeldSlots(ls) ==>
                      cycle.linePool.active[s] == old(cycle.linePool.active)[s])
    {
      ls := [];
      while |ls| < n
        invariant |ls| <= n && DistinctSlots(ls) && HeldIn(ls, cycle.linePool)
        invariant forall i :: 0 <= i < |ls| && ls[i].Some? ==> ls[i].value.reach == 0.0
        invariant cycle.linePool != null ==>
                && |old(cycle.linePool.active)| <= |cycle.linePool.active|
                && (forall s :: s in HeldSlots(ls) ==> s < |cycle.linePool.active| && cycle.linePool.active[s])
                && (forall s :: s in HeldSlots(ls) && s < |old(cycle.linePool.active)| ==> !old(cycle.linePool.active)[s])
                && (forall s :: 0 <= s < |old(cycle.linePool.active)| && s !in HeldSlots(ls) ==>
                      cycle.linePool.active[s] == old(cycle.linePool.active)[s])
      {
        var line := cycle.GetLineRendererFromPool();
        var e := if line.Some? then Some(PreviewLine(line.value, 0.0)) else None;
        HeldSlotsSnoc(ls, e);
        ls := ls + [e];
      }
    }

    /** The drawing loop of UpdatePreviewLines: every held preview is switched
        on and ends where the ray meets a wall, or at full preview length. */
    method DrawPreviews(ls: seq<Option<PreviewLine>>, wallHits: seq<Option<real>>) returns (drawn: seq<Option<PreviewLine>>)
      requires |ls| == AtLeastOne(lines) == |wallHits| && HeldIn(ls, cycle.linePool)
      modifies cycle.linePool
      ensures |drawn| == |ls| && HeldSlots(drawn) == HeldSlots(ls)
      ensures forall i :: 0 <= i < |ls| ==> drawn[i].Some? == ls[i].Some?
      ensures forall i :: 0 <= i < |ls| && ls[i].Some? ==>
                drawn[i] == Some(PreviewLine(ls[i].value.slot, PreviewReach(wallHits[i], cycle.previewLength)))
      ensures cycle.linePool != null ==> SetExactly(cycle.linePool.active, old(cycle.linePool.active), HeldSlots(ls), true)
    {
      var n := AtLeastOne(lines);
      drawn := ls;
      var i := 0;
      while i < |drawn| && i < n
        invariant 0 <= i <= n && |drawn| == |ls|
        invariant forall k :: 0 <= k < |ls| ==> drawn[k].Some? == ls[k].Some?
        invariant forall k :: 0 <= k < |ls| && ls[k].Some? ==> drawn[k].value.slot == ls[k].value.slot
        invariant forall k :: i <= k < |ls| ==> drawn[k] == ls[k]
        invariant forall k :: 0 <= k < i && ls[k].Some? ==>
                    drawn[k] == Some(PreviewLine(ls[k].value.slot, PreviewReach(wallHits[k], cycle.previewLength)))
        invariant cycle.linePool != null ==> SetExactly(cycle.linePool.active, old(cycle.linePool.active), HeldSlots(ls[..i]), true)
      {
        HeldSlotsPrefix(ls, i);
        if drawn[i].Some? {
          var slot := drawn[i].value.slot;
          cycle.linePool.Activate(slot);
          drawn := drawn[i := Some(PreviewLine(slot, PreviewReach(wallHits[i], cycle.previewLength)))];
        }
        i := i + 1;
      }
      assert ls[..i] == ls;
      assert HeldSlots(drawn) == HeldSlots(ls) by {
        forall s | s in HeldSlots(ls) ensures s in HeldSlots(drawn) {
          var k :| 0 <= k < |ls| && ls[k].Some? && ls[k].value.slot == s;
          assert drawn[k].value.slot == s;
        }
        forall s | s in HeldSlots(drawn) ensures s in HeldSlots(ls) {
          var k :| 0 <= k < |drawn| && drawn[k].Some? && drawn[k].value.slot == s;
          assert ls[k].value.slot == s;
        }
      }
    }

    /** UpdatePreviewLines: outside the last quarter of the cooldown, or while
        firing, every held preview goes back to the pool and the array becomes
        null; otherwise ShowPreviewLines draws them. */
    method UpdatePreviewLines(wallHits: seq<Option<real>>)
      requires Valid() && |wallHits| == AtLeastOne(lines)
      modifies this`previewLines, cycle.linePool
      ensures Valid()
      ensures previewLines.Some? <==> ShowPreview(cycle.passedAttackTime, cycle.attackRate, isAttacking)
      ensures !ShowPreview(cycle.passedAttackTime, cycle.attackRate, isAttacking) && cycle.linePool != null ==>
                SetExactly(cycle.linePool.active, old(cycle.linePool.active), HeldBy(old(previewLines)), false)
      ensures ShowPreview(cycle.passedAttackTime, cycle.attackRate, isAttacking) ==>
                && PreviewsDrawn(old(previewLines), previewLines.value, AtLeastOne(lines), wallHits, cycle.previewLength)
                && (cycle.linePool != null ==>
                      PoolFollowsPreviews(HeldBy(old(previewLines)), HeldSlots(previewLines.value),
                                          old(cycle.linePool.active), cycle.linePool.active))
    {
      if !(cycle.passedAttackTime >= cycle.attackRate * 0.75 && !isAttacking) {
        if previewLines.Some? {
          ReturnPreviews(previewLines.value);
          previewLines := None;
        }
        return;
      }
      ShowPreviewLines(wallHits);
    }

    /** The shown branch of UpdatePreviewLines: exactly AtLeastOne(lines)
        previews are held, re-leased only when the array was null or had
        another length, all of them active and drawn to the wall or to full
        length; no other pool instance changes. */
    method ShowPreviewLines(wallHits: seq<Option<real>>)
      requires Valid() && |wallHits| == AtLeastOne(lines)
      modifies this`previewLines, cycle.linePool
      ensures Valid()
      ensures previewLines.Some?
      ensures PreviewsDrawn(old(previewLines), previewLines.value, AtLeastOne(lines), wallHits, cycle.previewLength)
      ensures cycle.linePool != null ==>
                PoolFollowsPreviews(HeldBy(old(previewLines)), HeldSlots(previewLines.value),
                                    old(cycle.linePool.active), cycle.linePool.active)
    {
      var n := AtLeastOne(lines);
      var ls: seq<Option<PreviewLine>>;
      if previewLines.None? || |previewLines.value| != n {
        if previewLines.Some? {
          ReturnPreviews(previewLines.value);
        }
        ls := LeasePreviews(n);
      } else {
        ls := previewLines.value;
      }
      ls := DrawPreviews(ls, wallHits);
      previewLines := Some(ls);
    }

    /** OnDestroy: every held preview goes back to the pool. */
    method OnDestroy()
      requires Valid()
      modifies this`previewLines, cycle.linePool
      ensures Valid() && previewLines.None?
      ensures cycle.linePool != null ==>
                SetExactly(cycle.linePool.active, old(cycle.linePool.active),
                           if old(previewLines).Some? then HeldSlots(old(previewLines).value) else {}, false)
    {
      if previewLines.Some? {
        ReturnPreviews(previewLines.value);
        previewLines := None;
      }
    }

    /** CreateBullet: nothing without a missile pool; otherwise exactly one
        free (or new) missile instance becomes active, turned by `angle`. */
    method CreateBullet(angle: real) returns (bullet: Option<nat>)
      modifies this`firedAngles, cycle.missilesPool
      ensures bullet.Some? <==> cycle.missilesPool != null
      ensures bullet.Some? ==>
                && Acquires(old(cycle.missilesPool.active), cycle.missilesPool.active, bullet.value)
                && Grew(old(cycle.missilesPool.active), cycle.missilesPool.active, 1)
      ensures firedAngles == old(firedAngles) + (if bullet.Some? then [angle] else [])
    {
      if cycle.missilesPool == null {
        return None;
      }
      var slot := cycle.missilesPool.Acquire();
      bullet := Some(slot);
      firedAngles := firedAngles + [angle];
    }

    /** FireLines: one volley, a bullet per line of the fan: exactly
        AtLeastOne(_lines) missile instances become active, at the fan's angles. */
    method FireLines()
      modifies this`firedAngles, cycle.missilesPool
      ensures firedAngles == old(firedAngles) +
                (if cycle.missilesPool == null then [] else SpreadAngles(spreadAngle, AtLeastOne(lines)))
      ensures cycle.missilesPool != null ==>
                Grew(old(cycle.missilesPool.active), cycle.missilesPool.active, AtLeastOne(lines))
    {
      var n := AtLeastOne(lines);
      var i := 0;
      if cycle.missilesPool != null {
        GrewNothing(cycle.missilesPool.active);
      }
      while i < n
        invariant 0 <= i <= n
        invariant firedAngles == old(firedAngles) + (if cycle.missilesPool == null then [] else SpreadAngles(spreadAngle, n)[..i])
        invariant cycle.missilesPool != null ==> Grew(old(cycle.missilesPool.active), cycle.missilesPool.active, i)
      {
        assert SpreadAngles(spreadAngle, n)[..i + 1] == SpreadAngles(spreadAngle, n)[..i] + [LineAngle(spreadAngle, n, i)];
        ghost var before := if cycle.missilesPool == null then [] else cycle.missilesPool.active;
        var bullet := CreateBullet(LineAngle(spreadAngle, n, i));
        if cycle.missilesPool != null {
          GrewTrans(old(cycle.missilesPool.active), before, cycle.missilesPool.active, i, 1);
        }
        i := i + 1;
      }
      assert SpreadAngles(spreadAngle, n)[..n] == SpreadAngles(spreadAngle, n);
    }

    /** Attack: starts FireQueues, which runs at once up to its first wait. */
    method Attack(now: real)
      requires Valid() && !isAttacking && !cycle.isPerformingAttack
      modifies this`isAttacking, this`volleyPending, this`volleyDeadline, this`nextVolley,
               this`firedAngles, this`volleysFired, this`volleyWaits, cycle.missilesPool
      ensures Valid()
      ensures volleysFired == 1 && isAttacking == (1 < AtLeastOne(queues))
      ensures isAttacking ==> volleyDeadline == now + timeBetweenQueues
      ensures cycle.missilesPool != null ==>
                Grew(old(cycle.missilesPool.active), cycle.missilesPool.active, AtLeastOne(lines))
    {
      isAttacking := true;
      nextVolley := 0;
      firedAngles := [];
      volleysFired := 0;
      volleyWaits := 0;
      RunVolleys(now);
    }

    /** The loop of FireQueues from its current volley up to the next wait or
        to its end: one volley is fired, then either a wait is scheduled (more
        volleys follow) or the attack is over. */
    method RunVolleys(now: real)
      requires ReadyToFire()
      modifies this`isAttacking, this`volleyPending, this`volleyDeadline, this`nextVolley,
               this`firedAngles, this`volleysFired, this`volleyWaits, cycle.missilesPool
      ensures Valid()
      ensures volleysFired == old(volleysFired) + 1
      ensures isAttacking == (volleysFired < AtLeastOne(queues))
      ensures isAttacking ==> volleyDeadline == now + timeBetweenQueues
      ensures cycle.missilesPool != null ==>
                Grew(old(cycle.missilesPool.active), cycle.missilesPool.active, AtLeastOne(lines))
    {
      volleyPending := false;
      var q := nextVolley;
      ghost var start := nextVolley;
      while q < AtLeastOne(queues)
        invariant q == start || q == start + 1 == AtLeastOne(queues)
        invariant volleysFired == q && !volleyPending && isAttacking
        invariant volleyWaits == (if q == start then q else q - 1)
        invariant firedAngles == (if cycle.missilesPool == null then [] else Repeat(SpreadAngles(spreadAngle, AtLeastOne(lines)), volleysFired))
        invariant q == start && cycle.missilesPool != null ==> cycle.missilesPool.active == old(cycle.missilesPool.active)
        invariant q != start && cycle.missilesPool != null ==>
                    Grew(old(cycle.missilesPool.active), cycle.missilesPool.active, AtLeastOne(lines))
      {
        FireLines();
        volleysFired := volleysFired + 1;
        WaitOnlyBetweenVolleys(q, queues);
        if q < queues - 1 {
          volleyWaits := volleyWaits + 1;
          volleyPending := true;
          volleyDeadline := now + timeBetweenQueues;
          nextVolley := q + 1;
          return;
        }
        q := q + 1;
      }
      isAttacking := false;
    }

    /** The coroutines resumed at the end of a frame. A due volley wait lets
        FireQueues fire its next volley; a due windup lets Attack run once.
        The two never wait at the same time. */
    method ResumeCoroutines(now: real)
      requires Valid()
      modifies this`isAttacking, this`volleyPending, this`volleyDeadline, this`nextVolley,
               this`firedAngles, this`volleysFired, this`volleyWaits, cycle.missilesPool,
               cycle`isPerformingAttack, cycle`windupPending, cycle`attacks
      ensures Valid()
      ensures old(volleyPending) && now >= old(volleyDeadline) ==>
                && volleysFired == old(volleysFired) + 1 && cycle.attacks == old(cycle.attacks)
                && (isAttacking ==> volleyDeadline == now + timeBetweenQueues)
      ensures old(cycle.windupPending) && now >= old(cycle.windupDeadline) ==>
                && !cycle.isPerformingAttack && cycle.attacks == old(cycle.attacks) + 1 && volleysFired == 1
                && (isAttacking ==> volleyDeadline == now + timeBetweenQueues)
      ensures ((old(volleyPending) && now >= old(volleyDeadline)) || (old(cycle.windupPending) && now >= old(cycle.windupDeadline)))
              && cycle.missilesPool != null ==>
                Grew(old(cycle.missilesPool.active), cycle.missilesPool.active, AtLeastOne(lines))
      ensures !(old(volleyPending) && now >= old(volleyDeadline)) && !(old(cycle.windupPending) && now >= old(cycle.windupDeadline)) ==>
                && isAttacking == old(isAttacking) && volleysFired == old(volleysFired) && cycle.attacks == old(cycle.attacks)
                && cycle.isPerformingAttack == old(cycle.isPerformingAttack)
                && volleyPending == old(volleyPending) && volleyDeadline == old(volleyDeadline) && nextVolley == old(nextVolley)
                && firedAngles == old(firedAngles)
                && (cycle.missilesPool != null ==> cycle.missilesPool.active == old(cycle.missilesPool.active))
    {
      if volleyPending && now >= volleyDeadline {
        RunVolleys(now);
      } else {
        var fire := cycle.ResumeWindup(now);
        if fire {
          Attack(now);
        }
      }
    }

    /** OnAttackAnimationEvent: during the windup the attack happens now, once,
        and the pending windup is dropped; otherwise nothing changes. */
    method OnAttackAnimationEvent(now: real)
      requires Valid()
      modifies this`isAttacking, this`volleyPending, this`volleyDeadline, this`nextVolley,
               this`firedAngles, this`volleysFired, this`volleyWaits, cycle.missilesPool,
               cycle`isPerformingAttack, cycle`windupPending, cycle`attacks
      ensures Valid() && !cycle.isPerformingAttack && !cycle.windupPending
      ensures old(cycle.isPerformingAttack) ==>
                && cycle.attacks == old(cycle.attacks) + 1 && volleysFired == 1
                && (isAttacking ==> volleyDeadline == now + timeBetweenQueues)
                && (cycle.missilesPool != null ==>
                      Grew(old(cycle.missilesPool.active), cycle.missilesPool.active, AtLeastOne(lines)))
      ensures !old(cycle.isPerformingAttack) ==>
                && cycle.attacks == old(cycle.attacks) && isAttacking == old(isAttacking) && volleysFired == old(volleysFired)
                && firedAngles == old(firedAngles)
                && volleyPending == old(volleyPending) && volleyDeadline == old(volleyDeadline) && nextVolley == old(nextVolley)
                && (cycle.missilesPool != null ==> cycle.missilesPool.active == old(cycle.missilesPool.active))
    {
      var fire := cycle.OnAttackAnimationEvent();
      if fire {
        Attack(now);
      }
    }
  }
}

=== FILE: options.dfy ===
/** The optional value used wherever the source holds a reference that may be null. */
module Options {
  datatype Option<+T> = None | Some(value: T)
}

=== FILE: pools.dfy ===
/**
 * The object pool, seen only through the active flags of its instances.
 * The pool library itself is not part of this model: acquiring hands out
 * SOME inactive instance (or one new instance) and marks it active, and
 * releasing marks an instance inactive. Which free instance is chosen and
 * when the pool grows are left open.
 */
module Pools {

  /** The flags after `slot` is handed out: an existing free instance, or a
      new one appended at the end (slot == |before|). */
  function Acquired(before: seq<bool>, slot: nat): (after: seq<bool>)
    requires slot <= |before|
    ensures slot < |after| && after[slot]
    ensures |after| == if slot < |before| then |before| else |before| + 1
  {
    if slot < |before| then before[slot := true] else before + [true]
  }

  /** `after` is `before` with the free or new instance `slot` handed out. */
  ghost predicate Acquires(before: seq<bool>, after: seq<bool>, slot: nat) {
    && slot <= |before|
    && (slot < |before| ==> !before[slot])
    && after == Acquired(before, slot)
  }

  /** Number of active instances. */
  function ActiveCount(flags: seq<bool>): nat {
    if |flags| == 0 then 0
    else ActiveCount(flags[..|flags| - 1]) + (if flags[|flags| - 1] then 1 else 0)
  }

  /** Between `before` and `after` exactly k instances became active (free or
      new ones), no active instance was released, and at most k were added. */
  ghost predicate Grew(before: seq<bool>, after: seq<bool>, k: nat) {
    && |before| <= |after| <= |before| + k
    && ActiveCount(after) == ActiveCount(before) + k
    && forall j :: 0 <= j < |before| && before[j] ==> after[j]
  }

  lemma {:induction false} ActiveCountSetsOne(flags: seq<bool>, i: nat)
    requires i < |flags| && !flags[i]
    ensures ActiveCount(flags[i := true]) == ActiveCount(flags) + 1
    decreases |flags|
  {
    var n := |flags| - 1;
    var after := flags[i := true];
    if i == n {
      assert after[..n] == flags[..n];
    } else {
      assert after[..n] == flags[..n][i := true];
      ActiveCountSetsOne(flags[..n], i);
    }
  }

  lemma ActiveCountAppendsOne(flags: seq<bool>)
    ensures ActiveCount(flags + [true]) == ActiveCount(flags) + 1
  {
    assert (flags + [true])[..|flags|] == flags;
  }

  /** Handing out one instance activates exactly it and leaves the others alone. */
  lemma AcquiresGrowsByOne(before: seq<bool>, after: seq<bool>, slot: nat)
    requires Acquires(before, after, slot)
    ensures Grew(before, after, 1)
    ensures slot < |after| && after[slot]
    ensures forall j :: 0 <= j < |before| && j != slot ==> after[j] == before[j]
  {
    if slot < |before| {
      ActiveCountSetsOne(before, slot);
    } else {
      ActiveCountAppendsOne(before);
    }
  }

  lemma GrewNothing(flags: seq<bool>)
    ensures Grew(flags, flags, 0)
  {
  }

  lemma GrewTrans(a: seq<bool>, b: seq<bool>, c: seq<bool>, k1: nat, k2: nat)
    requires Grew(a, b, k1) && Grew(b, c, k2)
    ensures Grew(a, c, k1 + k2)
  {
  }

  class Pool {
    /** One flag per pooled instance: is its GameObject active? */
    var active: seq<bool>

    constructor (capacity: nat)
      ensures active == seq(capacity, _ => false)
    {
      active := seq(capacity, _ => false);
    }

    /** GetFreeElement followed by SetActive(true): an instance that was free
        (or is new) becomes active, and no other instance changes. */
    method Acquire() returns (slot: nat)
      modifies this
      ensures Acquires(old(active), active, slot) && Grew(old(active), active, 1)
      ensures slot < |active| && active[slot]
      ensures forall i :: 0 <= i < |old(active)| && i != slot ==> active[i] == old(active)[i]
    {
      if exists i :: 0 <= i < |active| && !active[i] {
        var i :| 0 <= i < |active| && !active[i];
        active := active[i := true];
        slot := i;
      } else {
        active := active + [true];
        slot := |active| - 1;
      }
      AcquiresGrowsByOne(old(active), active, slot);
    }

    /** SetActive(false) on an instance: it is free again. */
    method Release(slot: nat)
      requires slot < |active|
      modifies this
      ensures active == old(active)[slot := false]
    {
      active := active[slot := false];
    }

    /** SetActive(true) on an instance the caller already holds. */
    method Activate(slot: nat)
      requires slot < |active|
      modifies this
      ensures active == old(active)[slot := true]
    {
      active := active[slot := true];
    }
  }
}

=== FILE: rotate_to_nearest_target.dfy ===
/**
 * RotateToNearestTarget: a component that periodically picks the nearest
 * active entry of a manual target list and turns its pivot towards it.
 * Distances are compared squared, on the horizontal plane when Y is ignored.
 * The rotation itself (LookRotation, RotateTowards) is not modelled: Update
 * reports the vector it would turn towards.
 */
module Targeting {
  import opened Options

  datatype Vec3 = Vec3(x: real, y: real, z: real)

  /** A scene Transform: a position and whether its GameObject is active in the hierarchy. */
  class Transform {
    var position: Vec3
    var active: bool

    constructor (position: Vec3, active: bool)
      ensures this.position == position && this.active == active
    {
      this.position := position;
      this.active := active;
    }
  }

  /** Below this squared distance the pivot does not turn. */
  const MinTurnSqrDistance: real := 0.0001

  /** target - origin, with Y zeroed when it is ignored. */
  function Offset(target: Vec3, origin: Vec3, ignoreY: bool): (d: Vec3)
    ensures ignoreY ==> d.y == 0.0
    ensures d.x == target.x - origin.x && d.z == target.z - origin.z
    ensures !ignoreY ==> d.y == target.y - origin.y
  {
    Vec3(target.x - origin.x, if ignoreY then 0.0 else target.y - origin.y, target.z - origin.z)
  }

  function SqrMagnitude(v: Vec3): (r: real)
    ensures r >= 0.0
  {
    v.x * v.x + v.y * v.y + v.z * v.z
  }

  function SqrDistance(target: Vec3, origin: Vec3, ignoreY: bool): real {
    SqrMagnitude(Offset(target, origin, ignoreY))
  }

  /** With Y ignored, only the horizontal separation counts. */
  lemma IgnoredYDoesNotMatter(target: Vec3, origin: Vec3, h: real)
    ensures SqrDistance(target, origin, true) == SqrDistance(Vec3(target.x, h, target.z), origin, true)
  {
  }

  /** A list entry that may be chosen: not null and active. */
  predicate Selectable(t: Transform?)
    reads t
  {
    t != null && t.active
  }

  /** Entry k of ts is a nearest selectable entry to origin, and strictly
      nearer than every selectable entry before it. */
  ghost predicate NearestAt(ts: seq<Transform?>, origin: Vec3, ignoreY: bool, k: int)
    reads ts
  {
    && 0 <= k < |ts| && Selectable(ts[k])
    && forall j :: 0 <= j < |ts| && Selectable(ts[j]) ==>
         && SqrDistance(ts[k].position, origin, ignoreY) <= SqrDistance(ts[j].position, origin, ignoreY)
         && (j < k ==> SqrDistance(ts[k].position, origin, ignoreY) < SqrDistance(ts[j].position, origin, ignoreY))
  }

  /** What the nearest-target search may return for a target list (None is a null list). */
  ghost predicate NearestChoice(targets: Option<seq<Transform?>>, origin: Vec3, ignoreY: bool, best: Transform?)
    reads if targets.Some? then targets.value else []
  {
    match targets
    case None => best == null
    case Some(ts) =>
      && (best == null <==> forall j :: 0 <= j < |ts| ==> !Selectable(ts[j]))
      && (best != null ==> exists k :: NearestAt(ts, origin, ignoreY, k) && ts[k] == best)
  }

  /** The earliest-nearest entry is unique. */
  lemma NearestIsUnique(ts: seq<Transform?>, origin: Vec3, ignoreY: bool, k1: int, k2: int)
    requires NearestAt(ts, origin, ignoreY, k1) && NearestAt(ts, origin, ignoreY, k2)
    ensures k1 == k2
  {
  }

  class RotateToNearestTarget {
    /** The Transform that is turned (defaults to the component's own). */
    const pivot: Transform
    const ignoreY: bool
    /** max(0.05, _searchInterval). */
    const searchInterval: real

    /** _manualTargets: None is the null array. */
    var manualTargets: Option<seq<Transform?>>
    var currentTarget: Transform?
    /** FindTargetsLoop is running and next resumes at nextSearch. */
    var searching: bool
    var nextSearch: real

    /** Awake: the targets are the bricks found in the scene. */
    constructor (pivot: Transform, ignoreY: bool, searchInterval: real, bricks: seq<Transform>)
      ensures this.pivot == pivot && this.ignoreY == ignoreY
      ensures this.searchInterval == (if searchInterval > 0.05 then searchInterval else 0.05)
      ensures manualTargets == Some(bricks) && currentTarget == null && !searching
    {
      this.pivot := pivot;
      this.ignoreY := ignoreY;
      this.searchInterval := if searchInterval > 0.05 then searchInterval else 0.05;
      manualTargets := Some(bricks);
      currentTarget := null;
      searching := false;
      nextSearch := 0.0;
    }

    /** NearestFromManual: the earliest entry at the smallest squared distance
        among the non-null active entries; null if there is none. */
    method NearestFromManual() returns (best: Transform?)
      ensures NearestChoice(manualTargets, pivot.position, ignoreY, best)
    {
      if manualTargets.None? || |manualTargets.value| == 0 {
        return null;
      }
      var ts := manualTargets.value;
      best := null;
      var bestSqr := 0.0;
      ghost var bestIndex := -1;
      var i := 0;
      while i < |ts|
        invariant 0 <= i <= |ts|
        invariant best == null <==> forall j :: 0 <= j < i ==> !Selectable(ts[j])
        invariant best != null ==>
                    && 0 <= bestIndex < i && ts[bestIndex] == best && Selectable(best) && bestSqr == SqrDistance(best.position, pivot.position, ignoreY)
                    && forall j :: 0 <= j < i && Selectable(ts[j]) ==>
                         && bestSqr <= SqrDistance(ts[j].position, pivot.position, ignoreY)
                         && (j < bestIndex ==> bestSqr < SqrDistance(ts[j].position, pivot.position, ignoreY))
      {
        var t := ts[i];
        if t != null && t.active {
          var sqr := SqrDistance(t.position, pivot.position, ignoreY);
          if best == null || sqr < bestSqr {
            bestSqr := sqr;
            best := t;
            bestIndex := i;
          }
        }
        i := i + 1;
      }
      if best != null {
        assert NearestAt(ts, pivot.position, ignoreY, bestIndex);
      }
    }

    /** Update: turns towards the current target, unless there is none, it is
        inactive, or it is closer than the minimum distance. */
    method Update() returns (look: Option<Vec3>)
      ensures look.None? <==>
                currentTarget == null || !currentTarget.active
                || SqrDistance(currentTarget.position, pivot.position, ignoreY) < MinTurnSqrDistance
      ensures look.Some? ==> look.value == Offset(currentTarget.position, pivot.position, ignoreY)
                             && SqrMagnitude(look.value) >= MinTurnSqrDistance
    {
      if currentTarget == null || !currentTarget.active {
        return None;
      }
      var toTarget := Offset(currentTarget.position, pivot.position, ignoreY);
      if SqrMagnitude(toTarget) < MinTurnSqrDistance {
        return None;
      }
      look := Some(toTarget);
    }

    /** OnEnable: FindTargetsLoop starts and picks a target at once. */
    method OnEnable(now: real)
      modifies this`searching, this`nextSearch, this`currentTarget
      ensures searching && nextSearch == now + searchInterval
      ensures NearestChoice(manualTargets, pivot.position, ignoreY, currentTarget)
    {
      searching := true;
      currentTarget := NearestFromManual();
      nextSearch := now + searchInterval;
    }

    /** One resumption of FindTargetsLoop: when its wait is over, the target is chosen again. */
    method FindTargetsStep(now: real)
      modifies this`nextSearch, this`currentTarget
      ensures searching && now >= old(nextSearch) ==> NearestChoice(manualTargets, pivot.position, ignoreY, currentTarget) && nextSearch == now + searchInterval
      ensures !(searching && now >= old(nextSearch)) ==> currentTarget == old(currentTarget) && nextSearch == old(nextSearch)
    {
      if searching && now >= nextSearch {
        currentTarget := NearestFromManual();
        nextSearch := now + searchInterval;
      }
    }

    /** OnDisable: the search stops and the current target is cleared. */
    method OnDisable()
      modifies this`searching, this`currentTarget
      ensures !searching && currentTarget == null
    {
      searching := false;
      currentTarget := null;
    }

    /** SetManualTargets: null clears the list; otherwise the targets are copied in order. */
    method SetManualTargets(targets: Option<seq<Transform?>>)
      modifies this`manualTargets
      ensures manualTargets == targets
    {
      if targets.None? {
        manualTargets := None;
        return;
      }
      var list := targets.value;
      manualTargets := Some(list);
    }
  }
}

=== FILE: turret.dfy ===
/**
 * TurretAttack: an attack that fires a burst of bullets straight ahead,
 * one at a time with a pause between shots, and shows a single preview
 * line whose end point is recomputed at most every RaycastInterval seconds.
 */
module BurstAttack {
  import opened Options
  import opened Pools
  import opened AttackCycle
  import opened Projectiles

  /** Seconds between two recomputations of the preview end point. */
  const RaycastInterval: real := 0.1

  /** The arguments every burst bullet is initialised with: (_bulletSpeed, 15, 3). */
  function TurretBulletInit(bulletSpeed: real): (init: BulletInit)
    ensures init.speed == bulletSpeed && init.angleError == 15.0 && init.bounces == 3
  {
    BulletInit(bulletSpeed, 15.0, 3)
  }

  /** Bullets one burst emits: the loop runs max(0, _bulletNumber) times. */
  function BurstSize(bulletNumber: int): (n: nat)
    ensures bulletNumber >= 0 ==> n == bulletNumber
    ensures bulletNumber < 0 ==> n == 0
  {
    if bulletNumber > 0 then bulletNumber else 0
  }

  /** Waits one burst takes: one between each two shots, none after the last. */
  function BurstWaits(bulletNumber: int): (w: nat)
    ensures BurstSize(bulletNumber) > 0 ==> w == BurstSize(bulletNumber) - 1
    ensures BurstSize(bulletNumber) == 0 ==> w == 0
  {
    if bulletNumber > 1 then bulletNumber - 1 else 0
  }

  /** Consecutive entries of `times` are at least `gap` apart. */
  ghost predicate SpacedBy(times: seq<real>, gap: real) {
    forall k :: 0 <= k < |times| - 1 ==> times[k] + gap <= times[k + 1]
  }

  /** Shots spaced by `gap` span at least (n - 1) gaps from first to last. */
  lemma {:induction false} SpacedSpan(times: seq<real>, gap: real, k: nat)
    requires SpacedBy(times, gap) && k < |times|
    ensures times[0] + k as real * gap <= times[k]
  {
    if k > 0 {
      SpacedSpan(times, gap, k - 1);
      assert times[k - 1] + gap <= times[k];
    }
  }

  class TurretAttack {
    const cycle: AttackBase
    const bulletNumber: int
    const timeBtwAttack: real
    const bulletSpeed: real
    /** The turret's own _previewLength (not the base PreviewLength). */
    const previewLength: real
    /** Whether the missile prefab carries an EnemyBullet component. */
    const bulletComponent: bool

    var isAttacking: bool
    var bulletsCreated: int
    /** The suspended BurstAttackSequence: it waits until shotDeadline, then fires shot bulletsCreated. */
    var shotPending: bool
    var shotDeadline: real
    var previewLine: Option<PreviewLine>
    var nextRaycastTime: real
    /** Pool slots and Initialize arguments of the shots of the current or last burst. */
    ghost var shots: seq<(nat, Option<BulletInit>)>
    ghost var shotTimes: seq<real>
    ghost var shotWaits: nat

    /** The preview, if held, is an instance of the line pool. */
    ghost predicate PreviewValid()
      reads this, cycle, cycle.linePool
    {
      previewLine.Some? ==> cycle.linePool != null && previewLine.value.slot < |cycle.linePool.active|
    }

    /** Every shot so far was initialised as TurretBulletInit says, or not at all without a component. */
    ghost predicate ShotsInitialised()
      reads this
    {
      forall k :: 0 <= k < |shots| ==> shots[k].1 == (if bulletComponent then Some(TurretBulletInit(bulletSpeed)) else None)
    }

    /** The windup and the burst never overlap; during a burst the shot counter
        counts the shots so far, each followed by a wait; a finished burst
        fired BurstSize shots with BurstWaits waits and reset the counter;
        shots are at least timeBtwAttack apart. */
    ghost predicate Valid()
      reads this, cycle, cycle.linePool
    {
      && cycle.Valid() && cycle.missilesPool != null
      && !(isAttacking && cycle.isPerformingAttack)
      && shotPending == isAttacking
      && |shotTimes| == |shots|
      && (isAttacking ==> 0 < bulletsCreated < bulletNumber && |shots| == bulletsCreated && shotWaits == bulletsCreated
                          && shotDeadline == shotTimes[|shotTimes| - 1] + timeBtwAttack)
      && (!isAttacking ==> bulletsCreated == 0 &&
                           ((|shots| == 0 && shotWaits == 0) ||
                            (|shots| == BurstSize(bulletNumber) && shotWaits == BurstWaits(bulletNumber))))
      && SpacedBy(shotTimes, timeBtwAttack)
      && ShotsInitialised()
      && PreviewValid()
    }

    /** The state from which BurstAttackSequence runs on: at its start or after a wait. */
    ghost predicate ReadyToShoot(now: real)
      reads this, cycle, cycle.linePool
    {
      && cycle.Valid() && cycle.missilesPool != null
      && isAttacking && !cycle.isPerformingAttack && !shotPending
      && 0 <= bulletsCreated && |shots| == bulletsCreated && shotWaits == bulletsCreated
      && (bulletsCreated > 0 ==> bulletsCreated < bulletNumber)
      && |shotTimes| == |shots|
      && SpacedBy(shotTimes, timeBtwAttack)
      && (|shotTimes| > 0 ==> shotTimes[|shotTimes| - 1] + timeBtwAttack <= now)
      && ShotsInitialised()
      && PreviewValid()
    }

    /** A finished burst spans at least BurstWaits pauses from its first shot to its last. */
    lemma FinishedBurstSpan()
      requires Valid() && !isAttacking && |shots| > 0
      ensures shotTimes[0] + BurstWaits(bulletNumber) as real * timeBtwAttack <= shotTimes[|shotTimes| - 1]
    {
      SpacedSpan(shotTimes, timeBtwAttack, |shotTimes| - 1);
    }

    constructor (cycle: AttackBase, bulletNumber: int, timeBtwAttack: real, bulletSpeed: real,
                 previewLength: real, bulletComponent: bool)
      requires cycle.Valid() && !cycle.isPerformingAttack && cycle.missilesPool != null
      ensures Valid()
      ensures this.cycle == cycle && this.bulletNumber == bulletNumber && this.timeBtwAttack == timeBtwAttack
      ensures this.bulletSpeed == bulletSpeed && this.previewLength == previewLength
      ensures this.bulletComponent == bulletComponent
      ensures !isAttacking && previewLine.None?
    {
      this.cycle := cycle;
      this.bulletNumber := bulletNumber;
      this.timeBtwAttack := timeBtwAttack;
      this.bulletSpeed := bulletSpeed;
      this.previewLength := previewLength;
      this.bulletComponent := bulletComponent;
      isAttacking := false;
      bulletsCreated := 0;
      shotPending := false;
      shotDeadline := 0.0;
      previewLine := None;
      nextRaycastTime := 0.0;
      shots := [];
      shotTimes := [];
      shotWaits := 0;
    }

    /** Update: the cooldown runs only while neither the windup nor the burst is
        in progress; then the bar, the trigger and the preview. */
    method Update(now: real, deltaTime: real, wallHit: Option<real>)
      requires Valid()
      modifies this`previewLine, this`nextRaycastTime, cycle, cycle.linePool
      ensures Valid()
      ensures isAttacking == old(isAttacking)
      ensures var busy := old(isAttacking) || old(cycle.isPerformingAttack);
              var passed := if busy then old(cycle.passedAttackTime) else old(cycle.passedAttackTime) + deltaTime;
              && cycle.reloadFill == ReloadFill(passed, cycle.attackRate)
              && if !busy && AttackDue(passed, cycle.attackRate) then
                   && cycle.isPerformingAttack && cycle.passedAttackTime == 0.0
                   && cycle.windupPending && cycle.windupDeadline == now + cycle.attackAnimationDelay
                   && cycle.animationTriggers == old(cycle.animationTriggers) + (if cycle.hasAnimator then 1 else 0)
                   && cycle.episodes == old(cycle.episodes) + 1
                 else
                   && cycle.isPerformingAttack == old(cycle.isPerformingAttack)
                   && cycle.passedAttackTime == passed
                   && cycle.windupPending == old(cycle.windupPending)
                   && cycle.windupDeadline == old(cycle.windupDeadline)
                   && cycle.animationTriggers == old(cycle.animationTriggers)
                   && cycle.episodes == old(cycle.episodes)
      ensures previewLine.Some? ==> ShowPreview(cycle.passedAttackTime, cycle.attackRate, isAttacking)
      ensures ShowPreview(cycle.passedAttackTime, cycle.attackRate, isAttacking) && cycle.linePool != null ==> previewLine.Some?
      ensures var show := ShowPreview(cycle.passedAttackTime, cycle.attackRate, isAttacking);
              && (!show ==> nextRaycastTime == old(nextRaycastTime))
              && (!show && old(previewLine).Some? ==> cycle.linePool.active == old(cycle.linePool.active)[old(previewLine).value.slot := false])
              && (!show && old(previewLine).None? && cycle.linePool != null ==> cycle.linePool.active == old(cycle.linePool.active))
              && (show && old(previewLine).Some? ==>
                    previewLine.Some? && previewLine.value.slot == old(previewLine).value.slot
                    && (cycle.linePool.active == old(cycle.linePool.active)))
              && (show && old(previewLine).None? && previewLine.Some? ==>
                    Acquires(old(cycle.linePool.active), cycle.linePool.active, previewLine.value.slot))
              && (show && previewLine.Some? && old(nextRaycastTime) <= now ==>
                    nextRaycastTime == now + RaycastInterval && previewLine.value.reach == PreviewReach(wallHit, previewLength))
              && (previewLine.Some? && now < old(nextRaycastTime) ==>
                    nextRaycastTime == old(nextRaycastTime) && (old(previewLine).Some? ==> previewLine == old(previewLine)))
    {
      if !isAttacking && !cycle.isPerformingAttack {
        cycle.passedAttackTime := cycle.passedAttackTime + deltaTime;
      }
      cycle.RefreshReloadBar();
      CheckAndTryAttack(now);
      UpdatePreviewLine(now, wallHit);
    }

    /** CheckAndTryAttack: a new episode starts only when idle and due. */
    method CheckAndTryAttack(now: real)
      requires Valid()
      modifies cycle`isPerformingAttack, cycle`passedAttackTime, cycle`animationTriggers,
               cycle`windupPending, cycle`windupDeadline, cycle`episodes
      ensures Valid()
      ensures var start := !old(cycle.isPerformingAttack) && !isAttacking && AttackDue(old(cycle.passedAttackTime), cycle.attackRate);
              if start then
                && cycle.isPerformingAttack && cycle.passedAttackTime == 0.0
                && cycle.windupPending && cycle.windupDeadline == now + cycle.attackAnimationDelay
                && cycle.animationTriggers == old(cycle.animationTriggers) + (if cycle.hasAnimator then 1 else 0)
                && cycle.episodes == old(cycle.episodes) + 1
              else
                && cycle.isPerformingAttack == old(cycle.isPerformingAttack)
                && cycle.passedAttackTime == old(cycle.passedAttackTime)
                && cycle.windupPending == old(cycle.windupPending)
                && cycle.windupDeadline == old(cycle.windupDeadline)
                && cycle.animationTriggers == old(cycle.animationTriggers)
                && cycle.episodes == old(cycle.episodes)
    {
      if cycle.isPerformingAttack || isAttacking {
        return;
      }
      if cycle.passedAttackTime >= cycle.attackRate {
        cycle.StartAttackSequence(now);
      }
    }

    /** UpdatePreviewLine. Hidden: the preview, if held, goes back to the pool.
        Shown: a preview is leased if none is held; its end point is recomputed
        only when RaycastInterval has passed since the last recomputation. */
    method UpdatePreviewLine(now: real, wallHit: Option<real>)
      requires Valid()
      modifies this`previewLine, this`nextRaycastTime, cycle.linePool
      ensures Valid()
      ensures var show := ShowPreview(cycle.passedAttackTime, cycle.attackRate, isAttacking);
              && (!show ==> previewLine.None? && nextRaycastTime == old(nextRaycastTime))
              && (!show && old(previewLine).Some? ==> cycle.linePool.active == old(cycle.linePool.active)[old(previewLine).value.slot := false])
              && (!show && old(previewLine).None? && cycle.linePool != null ==> cycle.linePool.active == old(cycle.linePool.active))
              && (show && old(previewLine).Some? ==>
                    previewLine.Some? && previewLine.value.slot == old(previewLine).value.slot
                    && (cycle.linePool.active == old(cycle.linePool.active)))
              && (show && old(previewLine).None? ==> (previewLine.Some? <==> cycle.linePool != null))
              && (show && old(previewLine).None? && previewLine.Some? ==>
                    Acquires(old(cycle.linePool.active), cycle.linePool.active, previewLine.value.slot))
      ensures var redraw := previewLine.Some? && nextRaycastTime != old(nextRaycastTime);
              && (redraw ==> old(nextRaycastTime) <= now && nextRaycastTime == now + RaycastInterval
                             && previewLine.value.reach == PreviewReach(wallHit, previewLength))
              && (previewLine.Some? && now < old(nextRaycastTime) ==>
                    nextRaycastTime == old(nextRaycastTime) && (old(previewLine).Some? ==> previewLine == old(previewLine)))
      ensures ShowPreview(cycle.passedAttackTime, cycle.attackRate, isAttacking) && previewLine.Some? && old(nextRaycastTime) <= now ==>
                nextRaycastTime == now + RaycastInterval && previewLine.value.reach == PreviewReach(wallHit, previewLength)
    {
      if !(cycle.passedAttackTime >= cycle.attackRate * 0.75 && !isAttacking) {
        if previewLine.Some? {
          cycle.ReturnLineRendererToPool(Some(previewLine.value.slot));
          previewLine := None;
        }
        return;
      }
      if previewLine.None? {
        var line := cycle.GetLineRendererFromPool();
        if line.Some? {
          previewLine := Some(PreviewLine(line.value, 0.0));
        }
      }
      if previewLine.None? {
        return;
      }
      if now < nextRaycastTime {
        return;
      }
      nextRaycastTime := now + RaycastInterval;
      previewLine := Some(PreviewLine(previewLine.value.slot, PreviewReach(wallHit, previewLength)));
    }

    /** OnDisable: the preview, if held, goes back to the pool and is cleared. */
    method OnDisable()
      requires Valid()
      modifies this`previewLine, cycle.linePool
      ensures Valid() && previewLine.None?
      ensures old(previewLine).Some? ==> cycle.linePool.active == old(cycle.linePool.active)[old(previewLine).value.slot := false]
      ensures old(previewLine).None? && cycle.linePool != null ==> cycle.linePool.active == old(cycle.linePool.active)
    {
      if previewLine.Some? {
        cycle.ReturnLineRendererToPool(Some(previewLine.value.slot));
        previewLine := None;
      }
    }

    /** CreateBullet: one missile instance becomes active and, if it has an
        EnemyBullet component, is initialised with (_bulletSpeed, 15, 3). */
    method CreateBullet(now: real)
      requires cycle.missilesPool != null
      modifies this`shots, this`shotTimes, cycle.missilesPool
      ensures |shots| == |old(shots)| + 1 && shots[..|old(shots)|] == old(shots)
      ensures shotTimes == old(shotTimes) + [now]
      ensures var (slot, init) := shots[|shots| - 1];
              && slot < |cycle.missilesPool.active| && cycle.missilesPool.active[slot]
              && init == (if bulletComponent then Some(TurretBulletInit(bulletSpeed)) else None)
      ensures Acquires(old(cycle.missilesPool.active), cycle.missilesPool.active, shots[|shots| - 1].0)
      ensures Grew(old(cycle.missilesPool.active), cycle.missilesPool.active, 1)
      ensures old(ShotsInitialised()) ==> ShotsInitialised()
      ensures SpacedBy(old(shotTimes), timeBtwAttack) && (|old(shotTimes)| > 0 ==> old(shotTimes)[|old(shotTimes)| - 1] + timeBtwAttack <= now)
              ==> SpacedBy(shotTimes, timeBtwAttack)
    {
      var slot := cycle.missilesPool.Acquire();
      var init := if bulletComponent then Some(BulletInit(bulletSpeed, 15.0, 3)) else None;
      shots := shots + [(slot, init)];
      shotTimes := shotTimes + [now];
    }

    /** Attack: starts BurstAttackSequence, which runs at once up to its first wait. */
    method Attack(now: real)
      requires Valid() && !isAttacking && !cycle.isPerformingAttack
      modifies this`isAttacking, this`bulletsCreated, this`shotPending, this`shotDeadline,
               this`shots, this`shotTimes, this`shotWaits, cycle.missilesPool
      ensures Valid()
      ensures |shots| == (if isAttacking then 1 else BurstSize(bulletNumber))
      ensures isAttacking == (1 < bulletNumber)
      ensures isAttacking ==> shotDeadline == now + timeBtwAttack
      ensures BurstSize(bulletNumber) > 0 ==> Acquires(old(cycle.missilesPool.active), cycle.missilesPool.active, shots[0].0)
      ensures BurstSize(bulletNumber) == 0 ==> cycle.missilesPool.active == old(cycle.missilesPool.active)
    {
      isAttacking := true;
      bulletsCreated := 0;
      shots := [];
      shotTimes := [];
      shotWaits := 0;
      RunBurst(now);
    }

    /** The loop of BurstAttackSequence from its current shot up to the next wait
        or to its end: one shot (if any remain), then either a wait (another
        shot follows) or the end of the burst with the counter back at 0. */
    method RunBurst(now: real)
      requires ReadyToShoot(now)
      modifies this`isAttacking, this`bulletsCreated, this`shotPending, this`shotDeadline,
               this`shots, this`shotTimes, this`shotWaits, cycle.missilesPool
      ensures Valid()
      ensures |shots| == |old(shots)| + (if old(bulletsCreated) < bulletNumber then 1 else 0)
      ensures |shots| == |old(shots)| ==> cycle.missilesPool.active == old(cycle.missilesPool.active)
      ensures |shots| > |old(shots)| ==> Acquires(old(cycle.missilesPool.active), cycle.missilesPool.active, shots[|shots| - 1].0)
      ensures isAttacking == (|shots| < bulletNumber)
      ensures isAttacking ==> shotDeadline == now + timeBtwAttack
    {
      var i := bulletsCreated;
      ghost var start := bulletsCreated;
      while i < bulletNumber
        invariant i == start || i == start + 1 == bulletNumber
        invariant i == bulletsCreated && isAttacking && !shotPending
        invariant |shots| == i && |shotTimes| == i
        invariant shotWaits == (if i == start then i else i - 1)
        invariant SpacedBy(shotTimes, timeBtwAttack) && ShotsInitialised()
        invariant i == start ==> shotTimes == old(shotTimes) && shots == old(shots)
                                 && cycle.missilesPool.active == old(cycle.missilesPool.active)
        invariant i != start ==> Acquires(old(cycle.missilesPool.active), cycle.missilesPool.active, shots[i - 1].0)
        invariant i == start && i > 0 ==> shotTimes[i - 1] + timeBtwAttack <= now
      {
        CreateBullet(now);
        assert SpacedBy(shotTimes, timeBtwAttack) && ShotsInitialised();
        bulletsCreated := bulletsCreated + 1;
        if bulletsCreated < bulletNumber {
          shotWaits := shotWaits + 1;
          shotPending := true;
          shotDeadline := now + timeBtwAttack;
          return;
        }
        i := i + 1;
      }
      isAttacking := false;
      bulletsCreated := 0;
    }

    /** The coroutines resumed at the end of a frame: a due shot wait lets the
        burst fire its next shot; a due windup lets Attack run once. */
    method ResumeCoroutines(now: real)
      requires Valid()
      modifies this`isAttacking, this`bulletsCreated, this`shotPending, this`shotDeadline,
               this`shots, this`shotTimes, this`shotWaits, cycle.missilesPool,
               cycle`isPerformingAttack, cycle`windupPending, cycle`attacks
      ensures Valid()
      ensures old(shotPending) && now >= old(shotDeadline) ==>
                && |shots| == |old(shots)| + 1 && cycle.attacks == old(cycle.attacks)
                && Acquires(old(cycle.missilesPool.active), cycle.missilesPool.active, shots[|shots| - 1].0)
                && (isAttacking ==> shotDeadline == now + timeBtwAttack)
      ensures old(cycle.windupPending) && now >= old(cycle.windupDeadline) ==>
                && !cycle.isPerformingAttack && cycle.attacks == old(cycle.attacks) + 1
                && |shots| == (if isAttacking then 1 else BurstSize(bulletNumber))
                && (BurstSize(bulletNumber) > 0 ==> Acquires(old(cycle.missilesPool.active), cycle.missilesPool.active, shots[0].0))
                && (BurstSize(bulletNumber) == 0 ==> cycle.missilesPool.active == old(cycle.missilesPool.active))
                && (isAttacking ==> shotDeadline == now + timeBtwAttack)
      ensures !(old(shotPending) && now >= old(shotDeadline)) && !(old(cycle.windupPending) && now >= old(cycle.windupDeadline)) ==>
                && isAttacking == old(isAttacking) && shots == old(shots) && cycle.attacks == old(cycle.attacks)
                && cycle.isPerformingAttack == old(cycle.isPerformingAttack)
                && shotPending == old(shotPending) && shotDeadline == old(shotDeadline)
                && bulletsCreated == old(bulletsCreated) && shotTimes == old(shotTimes)
                && cycle.missilesPool.active == old(cycle.missilesPool.active)
    {
      if shotPending && now >= shotDeadline {
        shotPending := false;
        RunBurst(now);
      } else {
        var fire := cycle.ResumeWindup(now);
        if fire {
          Attack(now);
        }
      }
    }

    /** OnAttackAnimationEvent: during the windup the burst starts now, once,
        and the pending windup is dropped; otherwise nothing changes. */
    method OnAttackAnimationEvent(now: real)
      requires Valid()
      modifies this`isAttacking, this`bulletsCreated, this`shotPending, this`shotDeadline,
               this`shots, this`shotTimes, this`shotWaits, cycle.missilesPool,
               cycle`isPerformingAttack, cycle`windupPending, cycle`attacks
      ensures Valid() && !cycle.isPerformingAttack && !cycle.windupPending
      ensures old(cycle.isPerformingAttack) ==>
                && cycle.attacks == old(cycle.attacks) + 1 && |shots| == (if isAttacking then 1 else BurstSize(bulletNumber))
                && (BurstSize(bulletNumber) > 0 ==> Acquires(old(cycle.missilesPool.active), cycle.missilesPool.active, shots[0].0))
                && (BurstSize(bulletNumber) == 0 ==> cycle.missilesPool.active == old(cycle.missilesPool.active))
                && (isAttacking ==> shotDeadline == now + timeBtwAttack)
      ensures !old(cycle.isPerformingAttack) ==>
                && cycle.attacks == old(cycle.attacks) && isAttacking == old(isAttacking) && shots == old(shots)
                && shotPending == old(shotPending) && shotDeadline == old(shotDeadline)
                && bulletsCreated == old(bulletsCreated) && shotTimes == old(shotTimes)
                && cycle.missilesPool.active == old(cycle.missilesPool.active)
    {
      var fire := cycle.OnAttackAnimationEvent();
      if fire {
        Attack(now);
      }
    }
  }
}
